=== FILE: README.md ===
# Sentiment analyzer: accounts, sessions, training lock and review normalisation

A Dafny model of the sequential logic of a Flask movie-review sentiment
service:

- **Account store** (`UserDB`). A USER table maps each username to a Base64 string of a bcrypt digest. Both columns are VARCHAR(100). The store also records whether its connection is stuck in a failed transaction.
- **Session tokens** (`TokensDB`). A TOKENS table holds rows of (token_id, username, token, created_at, expires_at). A token is valid for one day, and the token column is not unique.
- **Activity log** (`ActivityLogDB`). An ACTIVITY_LOG table holds one row per username with the last login, training and inference times. It is written by an `INSERT … ON CONFLICT DO UPDATE` upsert.
- **Request handlers** (`App`). These are `login`, `register`, `home_page`, `train` and `infer`, modelled as transitions over the three tables and the Redis key `training_lock`.
  - `train` takes that key with `SET NX EX 300`.
  - It deletes the key in a `finally` block.
- **Review normalisation** (`Preprocess`, `Classifier`). This is `MovieReviewClassifier.preprocess`: strip, delete tags, keep ASCII letters, lower-case, split, stem and join. `Classifier` also holds the label map used by `infer`.

Every table is an immutable value and every handler is a pure function.
Anything the program gets from outside is a parameter:

- time, as integer microseconds, with one parameter per clock read, except that in `train` one time `now` serves both `verify_token`'s `datetime.now()` and Redis's clock at the `SET`;
- the bcrypt salt;
- the fresh `uuid4` token;
- the stored model;
- the Porter stemmer.

bcrypt is a pair of functions `hashpw`/`checkpw`. Three hypotheses about them appear, each only in the requires of the lemmas that need it:

- `Hashing.Accepts`: `checkpw(p, hashpw(p, salt))` holds, bcrypt's own promise. It is used by `UserDB.InsertThenValidate`, `App.RegisterThenLogin`, `App.RegisterTwiceThenLogin` and `Scenario.AliceScenario`.
- `Hashing.StandardDigest`: every digest is the 60-byte `$2b$…` string, so its Base64 form (80 characters) fits VARCHAR(100). It is used by `UserDB.StoredFits` and by the same four lemmas. A longer digest would overflow the column and make the insert fail.
- `Hashing.Binding`: no other password checks against a digest. This is an idealisation, since real bcrypt reads at most 72 bytes of the password. It is used only by `UserDB.InsertThenWrongPassword`.

Modules and files: `Common` (common.dfy), `Base64` (base64.dfy), `Hashing`
(hashing.dfy), `UserDB` (user_db.dfy), `TokensDB` (tokens_db.dfy),
`ActivityLogDB` (activity_log_db.dfy), `RedisLock` (redis_lock.dfy), `App`
(app.dfy), `Preprocess` (preprocess.dfy), `Classifier` (classifier.dfy),
`Scenario` (scenario.dfy).

These source quirks are reproduced as written:

- `update_activity` tests the activity name with an `if` followed by a separate `if`/`elif`. An unknown name leaves the column unbound. `ColumnFor` returns None for such a name, and `UpdateActivity` then fails.
- `get_username` returns a one-column row tuple. psycopg2 renders `(u,)` as the SQL `('u')`, so the later upsert still receives `u` (`App.SqlUsername`).
- `generate_token` reads the clock twice. created_at comes from the first read and expires_at from the second.
- `train` and `infer` resolve the username before they verify the token.
- `train` and `infer` apply `str()` to a missing token, which gives the text "None". `home_page` does not, so a missing token there is compared as SQL NULL.
- The exception branch of `MovieReviewClassifier.infer` returns the literal text `Exception : exc`, because the f-string has no braces.
- `execute_query` neither commits nor rolls back when a statement fails, and it re-raises the error as `DatabaseCommunicationError`. So a failed `insert_user` (a duplicate username, or a value too long for its column) is swallowed by the bare `except:`, but it leaves the USER connection in an aborted transaction. From then on every `validate_user` returns false (`UserDB.FailedInsertLocksOut`, `UserDB.InsertTwiceAborts`). The lock-out is listed under "## Findings", and the handlers use the rolled-back insert `UserDB.InsertUserRolledBack`. A username holding the NUL character never reaches the server: psycopg2 refuses to quote it, the ValueError is swallowed, and nothing changes; `validate_user` refuses such a name the same way.
- `train_data` catches every Exception itself. A training run that cannot read the data or fit the model still returns, so the reply is "Training completed" and 'training' is recorded (outcome `Completed`). "Training failed with …" arises only when the 'training' activity write raises (outcome `Failed`). `Escaped` is an exception that is not an `Exception`.
- The lock release is unconditional. `RedisLock.UnconditionalReleaseHazard` and `App.TrainLostRelease` show what follows: a request whose key has expired deletes a second request's key, and a third request then trains at the same time as the second.

## Model

| member | source | states |
|---|---|---|
| Base64.Encode | postgres_utils.py:71 | an encoding of n bytes has 4·⌈n/3⌉ characters |
| Base64.RoundTrip | postgres_utils.py:162 | `b64decode` inverts `b64encode` for every byte string |
| Base64.Decode | postgres_utils.py:162 | strict RFC 4648 decoding: it succeeds only on text whose length is a multiple of 4; `RoundTrip` pins it down as the inverse of `Encode` |
| Base64.EncodeIsAlphabet | postgres_utils.py:71 | every character of an encoding is from the RFC 4648 alphabet or is the `=` pad, so `.decode('utf-8')` cannot fail |
| Hashing.Encrypt | postgres_utils.py:68-72 | the stored value Base64-decodes to exactly bcrypt's digest of the password under the salt |
| UserDB.Varchar | postgres_utils.py:89-90 | a VARCHAR(100) column keeps text of at most 100 characters whole, cuts longer text to exactly its first 100 characters when the excess is all spaces, and refuses it otherwise |
| UserDB.NulFree | postgres_utils.py:48-49 | the text psycopg2 can quote as a literal: no NUL character; the contracts of `InsertUser`, `ValidateUser` and `DeleteUser` state what happens otherwise |
| UserDB.InsertUser | postgres_utils.py:48-121 | a username holding NUL or an aborted connection changes nothing; otherwise, when the row is admitted, the username is added with a stored value that decodes to the bcrypt digest and every other row is unchanged; a duplicate or over-long value leaves the rows unchanged, raises nothing, and aborts the connection |
| UserDB.StoredKeptWhole | postgres_utils.py:85-90 | the Base64 password text has no spaces, so its column stores it whole or refuses it, never cuts it |
| UserDB.StoredFits | postgres_utils.py:68-72 | with bcrypt's 60-byte digest the stored text is 80 characters and fits VARCHAR(100) |
| UserDB.FailedInsertLocksOut | postgres_utils.py:48-167 | an INSERT that is sent on a healthy connection and fails leaves the rows as they were, yet afterwards no user validates with any password |
| UserDB.InsertTwiceAborts | postgres_utils.py:99-121 | inserting the same username twice leaves the connection aborted exactly when it already was or the name can be sent (holds no NUL) |
| UserDB.InsertUserRolledBack | postgres_utils.py:99-121 | the rolled-back insert: whenever the INSERT is not performed (aborted connection, NUL in the name, duplicate or over-long value) table and connection are exactly as they were; a successful one is the same as `InsertUser` |
| UserDB.RolledBackKeepsOthers | postgres_utils.py:99-168 | with the rollback, registering one name never changes whether any other user validates |
| UserDB.ValidateUser | postgres_utils.py:141-168 | validation succeeds only on a healthy connection, for a username without NUL that has a row |
| UserDB.UnknownUserRejected | postgres_utils.py:158-167 | an unknown username is refused: the None hash makes `checkpw` raise, and the handler returns false |
| UserDB.InsertThenValidate | postgres_utils.py:159-165 | on a healthy connection and with bcrypt's standard digest, after `insert_user(u, p)` on a new NUL-free name of at most 100 characters, `validate_user(u, p)` is true |
| UserDB.InsertThenWrongPassword | postgres_utils.py:163-165 | with a bcrypt that rejects every other password, a different password is refused |
| UserDB.InsertKeepsOthers | postgres_utils.py:105-116 | an insert that does not abort the connection does not change whether any other user validates |
| UserDB.DeleteUser | postgres_utils.py:170-184 | on a healthy connection and for a NUL-free name exactly that username's row is removed and the other rows are unchanged; otherwise the error escapes |
| UserDB.DeleteThenValidate | postgres_utils.py:176-184 | after a successful delete the user no longer validates with any password |
| TokensDB.GenerateToken | postgres_utils.py:220-242 | appends exactly one row, with the owner, the new token, created_at = first clock read and expires_at = second read + 1 day; expires_at > created_at unless the clock went back a day between the reads; the token_id key invariant is preserved |
| TokensDB.VerifyToken | postgres_utils.py:269-294 | true iff some row has the token and `expires_at > now` |
| TokensDB.VerifyAfterIssue | postgres_utils.py:276-291 | a freshly issued token verifies exactly while now < expires_at |
| TokensDB.ExpiryBoundary | postgres_utils.py:280 | it is accepted one microsecond before expires_at and refused at expires_at |
| TokensDB.VerifyAntitone | postgres_utils.py:276-291 | an expired token never becomes valid again as time advances |
| TokensDB.GetUsername | postgres_utils.py:244-267 | returns a row tuple iff some row holds the token, and that row is its owner; returns '' when none does; expiry is ignored |
| TokensDB.GetUsernameAfterIssue | postgres_utils.py:250-263 | a freshly issued token resolves to its owner at any time, even after it expires |
| TokensDB.InvalidateToken | postgres_utils.py:296-310 | exactly the rows holding the token are deleted |
| TokensDB.VerifyAfterInvalidate | postgres_utils.py:302-310 | after invalidation the token is refused at every time |
| TokensDB.InvalidateIdempotent | postgres_utils.py:302-310 | invalidating twice is the same as invalidating once |
| TokensDB.InvalidateKeepsOthers | postgres_utils.py:302-310 | the verdict on every other token is unchanged |
| TokensDB.InvalidateValid | postgres_utils.py:204 | deletion keeps token_id a strictly increasing, unique key |
| TokensDB.VerifiedHasOwner | app.py:87-89 | a token that verifies always resolves to a username |
| ActivityLogDB.ColumnFor | postgres_utils.py:351-356 | the if / if-elif chain selects column c iff the name is c's name; any other name selects nothing |
| ActivityLogDB.Set | postgres_utils.py:362 | `SET column = now` changes that column and no other |
| ActivityLogDB.Upsert | postgres_utils.py:358-370 | the kind's column becomes now; an absent user gets a new row whose other columns are null; an existing row keeps its other columns; other users' rows are unchanged |
| ActivityLogDB.UpdateActivity | postgres_utils.py:344-371 | succeeds iff the name is login, training or inference, and then performs the upsert for that column |
| ActivityLogDB.UpsertTwiceSameColumn | postgres_utils.py:358-362 | repeating one kind keeps the later time and leaves the other columns alone |
| ActivityLogDB.UpsertDifferentColumnsCommute | postgres_utils.py:358-362 | two different kinds on one user commute and neither update is lost |
| ActivityLogDB.UpsertMonotone | postgres_utils.py:358-368 | under a clock that does not go back, every timestamp only moves forward |
| RedisLock.SetNxEx | app.py:91 | acquires iff the key is absent or expired, and then sets the expiry to now + 300 s; otherwise the key is untouched |
| RedisLock.Held | app.py:91 | Redis's expiry rule: a key blocks `SET NX` while now ≤ its expiry; `ContendWhileHeld` and `ExpiryFreesLock` pin it down |
| RedisLock.Delete | app.py:104 | after `DELETE` nobody holds the key |
| RedisLock.ContendWhileHeld | app.py:91 | while a key is live, every `SET NX` fails and the key stays |
| RedisLock.MutualExclusion | app.py:91 | of any attempts within 300 s of the first, starting with no live key, exactly one acquires, and it is the first |
| RedisLock.ReleaseThenAcquire | app.py:102-104 | after the release the next attempt acquires |
| RedisLock.ExpiryFreesLock | app.py:91 | a key that is never deleted stops blocking after 300 s |
| RedisLock.UnconditionalReleaseHazard | app.py:104 | a holder whose key expired deletes its successor's live key, and a third caller then acquires while the successor still runs |
| App.Login | app.py:41-52 | on valid credentials, exactly one token row is added for the user, holding the new token, created_at = first clock read and expires_at = second read + 1 day (the table `generate_token` produces); the token verifies until expiry; 'login' is recorded; index.html gets the token. Otherwise nothing changes and login.html is shown |
| App.Credentials | app.py:42-45 | login succeeds only with both arguments present and `validate_user` true; a missing username or password is refused; `Login` and `FailedLoginChangesNothing` state the two outcomes |
| App.FailedLoginChangesNothing | app.py:50-52 | a failed login adds no token and records no activity |
| App.RegisterThenLogin | app.py:45-49 | on a healthy USER connection, a newly registered user whose name is NUL-free and fits its column can log in at once |
| App.RegisterTwiceThenLogin | app.py:45-63 | with the rolled-back insert, registering a taken name changes no account, and the first user still logs in with the first password |
| App.Register | app.py:56-64 | `insert_user` (rolled back on failure) runs only when both fields are given and non-empty; otherwise no state changes; login.html is shown either way |
| App.HomePage | app.py:74-81 | index.html is shown iff a token was given and it verifies; otherwise login.html |
| App.HomePageAfterLogin | app.py:76-78 | a token from login opens the home page until expires_at and not from then on |
| App.TrainEnter | app.py:85-93 | a bad token changes nothing; with a good token, a live key means busy with nothing changed, and otherwise the key is set to expire 300 s after now for the token's owner |
| App.SqlUsername | postgres_utils.py:262-267 | the value a handler passes on from `get_username`: the owner of the one-column row, or '' when no row holds the token; `VerifiedHasOwner` shows a verified token always has a row |
| App.TrainExit | app.py:93-108 | the key is deleted on every outcome; 'training' is recorded only when `train_data` returns (even after a failed run, which it catches); the reply matches the outcome |
| App.Train | app.py:85-111 | a bad token changes no state; with a live key the reply is "Training is already in progress" and nothing runs or changes; once acquired, the key is gone afterwards and 'training' is recorded exactly when `train_data` returned |
| App.TrainTwiceInSequence | app.py:102-104 | a request that follows a finished one acquires the key |
| App.TrainLostRelease | app.py:90-104 | with interleaved requests, the unconditional release lets two requests train at once |
| App.Infer | app.py:116-135 | a bad token changes no state; an empty query records nothing; otherwise the reply is "query - label" and 'inference' is recorded for the token's owner |
| App.InferRecordsOnlyWhenServed | app.py:119-129 | the activity log changes only for a verified token with a non-empty query |
| App.BadTokenChangesNothing | app.py:74-135 | with a token that fails verification, `train`, `infer` and `home_page` change no table and no lock |
| Scenario.AliceScenario | app.py:41-108 | register, validate, login, verify, acquire, busy, release, re-acquire; one day later the token is refused but still resolves to alice |
| Preprocess.Strip | classifier.py:26 | the result is the input without its maximal leading and trailing whitespace |
| Preprocess.StripTags | classifier.py:27 | the result holds no `<` that is followed by a `>`, is no longer than the input, and equals the input when it has no `>` |
| Preprocess.StripTagsFromInput | classifier.py:27 | every character of the result comes from the input |
| Preprocess.StripTagsDeletesLeftmostTag | classifier.py:27 | the leftmost `<` up to the next `>` is deleted, and scanning resumes after the `>` |
| Preprocess.StripTagsKeepsUnclosed | classifier.py:27 | text with no `>` after it, including an unclosed `<`, is kept verbatim |
| Preprocess.TagFreeUnchanged | classifier.py:27 | text without a tag is unchanged |
| Preprocess.StripTagsIdempotent | classifier.py:27 | deleting tags twice is the same as once |
| Preprocess.LettersOnly | classifier.py:28 | the length is preserved; letters stay; every other character becomes a space |
| Preprocess.Lower | classifier.py:29 | the length is preserved and no upper-case letter remains |
| Preprocess.LowerLettersOnly | classifier.py:28-29 | after both steps only a-z and spaces remain, and the spaces are exactly the former non-letters |
| Preprocess.Split | classifier.py:30 | the words are non-empty, contain no whitespace, and are made of input characters |
| Preprocess.SplitInterleave | classifier.py:30 | words with non-empty whitespace runs of any length between them, and optional whitespace at both ends, split back into exactly those words |
| Preprocess.GapsOf | classifier.py:30 | the whitespace runs of a text: one more than its words, all whitespace, non-empty between two words |
| Preprocess.InterleaveGaps | classifier.py:30 | every text is its split words interleaved with its whitespace runs, so with `SplitInterleave` the split is exactly the maximal runs of non-whitespace, in order |
| Preprocess.SplitJoin | classifier.py:30-32 | splitting the space-join of proper words gives back the words |
| Preprocess.Join | classifier.py:32 | `' '.join`: the words with one space between each pair; `SplitJoin` and `JoinNormalized` pin it down |
| Preprocess.JoinNormalized | classifier.py:32 | the join of proper words has no leading, trailing or doubled spaces |
| Preprocess.WordsAreLowercase | classifier.py:28-30 | every word passed to the stemmer is a non-empty run of a-z |
| Preprocess.Stems | classifier.py:31 | the stemmer applied to each word in order, one stem per word |
| Preprocess.Preprocess | classifier.py:25-33 | the whole `preprocess`: strip, delete tags, keep letters, lower-case, split, stem and join; `PreprocessShape` and `StripIsRedundant` pin it down |
| Preprocess.PreprocessShape | classifier.py:25-33 | given well-behaved stems, the output is the stems joined by single spaces, with no leading, trailing or doubled space; it has as many words as the split |
| Preprocess.StripIsRedundant | classifier.py:26-30 | the initial `strip()` never changes the words |
| Classifier.LabelText | classifier.py:73-74 | 0 maps to "Negative" and 1 to "Positive"; every other label is a KeyError |
| Classifier.SentimentNumeric | classifier.py:38-39 | `map_dict`: "positive" maps to 1, "negative" to 0, and any other sentiment to no label |
| Classifier.LabelsAgree | classifier.py:38 | the training encoding {positive: 1, negative: 0} decodes at inference to "Positive" and "Negative" |
| Classifier.Infer | classifier.py:64-78 | the reply is the label of the prediction on the preprocessed text; a falsy model gives "No model exist! Train the data"; a load error or unknown label gives the literal "Exception : exc" |
| Classifier.InferDependsOnPreprocessed | classifier.py:71-72 | two reviews with the same preprocessed form get the same reply |

## Left out

- Connection setup and cursors are driver I/O. On the USER connection, the driver's refusal of a NUL character, a failed INSERT and its effect on the connection are modelled. Statements on the TOKENS and ACTIVITY_LOG connections are assumed to succeed; a token or username holding NUL there is not treated specially (tokens are `uuid4` hex, and names reach those tables only after `validate_user` accepted them).
  - `App.Infer` therefore has no "Exception : …" reply for a storage failure.
  - The training outcome `Failed` stands for a failing activity write, without modelling which statement failed.
- The text of the SQL statements and the `create_table` DDL are not modelled; each statement's effect is.
- UserDB.InsertUser: follows the source, so a failed INSERT aborts the connection for good. The handlers use the corrected `InsertUserRolledBack` instead (see "## Findings"), so `App.Register` does not reproduce the lock-out.
- App.RegisterThenLogin: assumes a healthy USER connection, a NUL-free name of at most 100 characters and bcrypt's 60-byte digest; a longer name is cut or refused by its column, and a name with NUL is never stored.
- bcrypt's own refusal of some passwords (newer releases raise ValueError for a NUL byte) is not modelled: `hashpw` and `checkpw` are total functions.
- The VARCHAR(100) limits on the TOKENS and ACTIVITY_LOG columns are not modelled; a token or username too long for them is accepted there.
- bcrypt internals, `gensalt` and `uuid4` are foreign or random. They appear as the `Bcrypt` functions, a salt parameter and a token parameter.
- `Hashing.Binding` (checkpw accepts only the hashed password) is an idealisation. Real bcrypt reads at most 72 bytes of the password. Only `UserDB.InsertThenWrongPassword` assumes it.
- The UTF-8 encoding of the password is folded into `hashpw`/`checkpw`, which take the password as text.
- `datetime.now()` and Redis's clock are explicit integer parameters, and Redis's clock is taken to be the application's clock. Redis keeps expiry at millisecond resolution; the model uses microseconds.
- Redis client setup and real concurrency are left out. Concurrent requests are sequential interleavings of atomic steps (`TrainEnter`, `TrainExit`).
- The model assumes that no other request runs between `get_username` and `verify_token` within one request; both are evaluated against the same table state.
- Flask routing, templates, `redirect`, `jsonify` and request parsing are UI plumbing. The `loginpage` and `logout` handlers only render or redirect.
- `read_data`, the rest of `preprocess_data`, `get_model`, `train_data`, the pickle I/O and `predict` are pandas, sklearn and file I/O. They appear as the training outcome and `Classifier.StoredModel`.
- The Porter stemmer's internals are left out; it is a function parameter.
- `print` logging is left out.
- user.py (the `User` class) is not part of this model. A user is taken to be a plain username/password pair.
- Base64.Decode: decodes strictly. Python's `b64decode` also skips characters outside the alphabet. The two agree on every string `Encode` produces, which is all the table ever holds.
- Preprocess.Lower: lower-cases ASCII only. Python's `str.lower` is Unicode-aware, but at this step the text holds only ASCII letters and spaces.
- ActivityLogDB.ColumnFor: models `is` as string equality. The callers pass literals, which CPython interns.
- TokensDB.GetUsername: returns the earliest matching row. SQL leaves the row order unspecified.
- TokensDB.InvalidateToken: states which rows remain by membership only, not that their order is kept. `RowsWithout` keeps it.

## Findings

| source | as written | input that shows it | evidently intended | confidence | as-written member | corrected member |
|---|---|---|---|---|---|---|
| postgres_utils.py:48-121 | a failed INSERT in `insert_user` is neither committed nor rolled back, and the re-raised error is swallowed by the bare `except:`, so the USER connection stays in an aborted transaction and every later `validate_user` returns false | register `alice`, register `alice` again, then log in as `alice` with the right password: refused | roll back the failed INSERT so other statements keep working | not executed | UserDB.FailedInsertLocksOut | UserDB.InsertUserRolledBack |

=== FILE: activity_log_db.dfy ===
/**
 The ACTIVITY_LOG table (`ActivityLogDB`): one row per username with three
 nullable timestamps. The table is a map from username to its row.
 */
module ActivityLogDB {
  import opened Common

  /** The three timestamp columns of a row. */
  datatype Column = LastLogin | LastTraining | LastInference

  datatype Record = Record(lastLogin: Option<Time>, lastTraining: Option<Time>, lastInference: Option<Time>)

  type Log = map<string, Record>

  /** The activity name that selects each column. */
  function ActivityName(c: Column): string
  {
    match c
    case LastLogin => "login"
    case LastTraining => "training"
    case LastInference => "inference"
  }

  /**
   The column `update_activity` picks for an activity name: an `if` for
   "login" followed by a separate `if`/`elif` for "training" and "inference".
   Any other name binds no column (None), and the statement that follows then
   raises UnboundLocalError. String identity is taken as equality: the callers
   pass literals, which CPython interns.
   */
  function ColumnFor(activity: string): (r: Option<Column>)
    ensures forall c :: r == Some(c) <==> activity == ActivityName(c)
  {
    var first := if activity == "login" then Some(LastLogin) else None;
    if activity == "training" then Some(LastTraining)
    else if activity == "inference" then Some(LastInference)
    else first
  }

  function Get(rec: Record, c: Column): Option<Time>
  {
    match c
    case LastLogin => rec.lastLogin
    case LastTraining => rec.lastTraining
    case LastInference => rec.lastInference
  }

  /** `SET <column> = now`: that column takes the time, the others are kept. */
  function Set(rec: Record, c: Column, now: Time): (r: Record)
    ensures Get(r, c) == Some(now)
    ensures forall d :: d != c ==> Get(r, d) == Get(rec, d)
  {
    match c
    case LastLogin => rec.(lastLogin := Some(now))
    case LastTraining => rec.(lastTraining := Some(now))
    case LastInference => rec.(lastInference := Some(now))
  }

  const NullRecord: Record := Record(None, None, None)

  /**
   The upsert `INSERT (username, column) VALUES (username, now) ON CONFLICT
   (username) DO UPDATE SET column = now`: a new username gets a row with only
   that column set, an existing row gets only that column overwritten.
   */
  function Upsert(log: Log, username: string, c: Column, now: Time): (r: Log)
    ensures r.Keys == log.Keys + {username}
    ensures Get(r[username], c) == Some(now)
    ensures forall d :: d != c ==> Get(r[username], d) == (if username in log then Get(log[username], d) else None)
    ensures forall u :: u in log && u != username ==> r[u] == log[u]
  {
    var before := if username in log then log[username] else NullRecord;
    log[username := Set(before, c, now)]
  }

  /**
   `update_activity(username, activity)` at clock reading `now`. None when the
   name selects no column: the UnboundLocalError escapes before any statement
   reaches the table.
   */
  function UpdateActivity(log: Log, username: string, activity: string, now: Time): (r: Option<Log>)
    ensures r.Some? <==> activity in {"login", "training", "inference"}
    ensures forall c :: activity == ActivityName(c) ==> r == Some(Upsert(log, username, c, now))
  {
    match ColumnFor(activity)
    case None => None
    case Some(c) => Some(Upsert(log, username, c, now))
  }

  /** Repeating an activity keeps the later time and leaves the other columns alone. */
  lemma UpsertTwiceSameColumn(log: Log, username: string, c: Column, t1: Time, t2: Time)
    ensures var r := Upsert(Upsert(log, username, c, t1), username, c, t2);
      && Get(r[username], c) == Some(t2)
      && forall d :: d != c ==> Get(r[username], d) == (if username in log then Get(log[username], d) else None)
  {
  }

  /** Two activities of different kinds on one username lose neither update, in either order. */
  lemma UpsertDifferentColumnsCommute(log: Log, username: string, c: Column, d: Column, t1: Time, t2: Time)
    requires c != d
    ensures Upsert(Upsert(log, username, c, t1), username, d, t2) == Upsert(Upsert(log, username, d, t2), username, c, t1)
    ensures var r := Upsert(Upsert(log, username, c, t1), username, d, t2);
      Get(r[username], c) == Some(t1) && Get(r[username], d) == Some(t2)
  {
  }

  /** Under a clock that does not run backwards, every column only moves forward. */
  lemma UpsertMonotone(log: Log, username: string, c: Column, now: Time)
    requires forall u, d :: u in log && Get(log[u], d).Some? ==> Get(log[u], d).value <= now
    ensures var r := Upsert(log, username, c, now);
      forall u, d :: u in log && Get(log[u], d).Some? ==> Get(r[u], d).Some? && Get(log[u], d).value <= Get(r[u], d).value
  {
  }
}

=== FILE: app.dfy ===
/**
 The request handlers of the Flask application (`login`, `register`,
 `home_page`, `train`, `infer`) as transitions of the server state: the three
 tables and the Redis lock key. Request arguments are optional strings (a
 missing argument is Python's None); every clock read, the fresh salt, the
 fresh token, the stored model and the stemmer are parameters.
 */
module App {
  import opened Common
  import opened Hashing
  import UserDB
  import TokensDB
  import ActivityLogDB
  import RedisLock
  import Classifier

  datatype Server = Server(
    users: UserDB.Store,
    tokens: TokensDB.Tokens,
    activity: ActivityLogDB.Log,
    lock: RedisLock.Lock)

  /** What a handler sends back. */
  datatype Page =
    | LoginPage                                                    // login.html
    | IndexPage(token: string, inferenceResponse: Option<string>)  // index.html
    | TrainStatus(status: string, token: string)                   // the JSON reply of /train
    | HomeRedirect(response: string, token: string)                // redirect to home_page
    | ServerError                                                  // an exception escaped the handler

  datatype Reply = Reply(state: Server, page: Page)

  /** Python truthiness of a request argument: present and non-empty. */
  predicate Given(arg: Option<string>)
  {
    arg.Some? && arg.value != ""
  }

  /** `str(arg)`: a missing header or argument becomes the text "None". */
  function Str(arg: Option<string>): string
  {
    match arg
    case None => "None"
    case Some(text) => text
  }

  /**
   The value `update_activity` receives from `get_username`: psycopg2 renders
   the one-element tuple `(u,)` as the SQL expression `('u')`, which is `u`;
   the empty-string fallback is ''.
   */
  function SqlUsername(l: TokensDB.Lookup): string
  {
    match l
    case RowTuple(u) => u
    case Blank => ""
  }

  /** The username a handler resolves from a token, before any verification. */
  function Owner(s: Server, token: string): string
  {
    SqlUsername(TokensDB.GetUsername(s.tokens.rows, token))
  }

  /** `verify_token(token)` against the current table. */
  predicate Verified(s: Server, token: string, now: Time)
  {
    TokensDB.VerifyToken(s.tokens.rows, token, now)
  }

  // ---------------------------------------------------------------- login and register

  /**
   `validate_user(User(username, password))`. A missing username is compared as
   SQL NULL and finds no row; a missing password fails on `.encode`; both
   exceptions are caught and give false.
   */
  predicate Credentials(s: Server, h: Bcrypt, username: Option<string>, password: Option<string>)
  {
    username.Some? && password.Some? && UserDB.ValidateUser(s.users, h, username.value, password.value)
  }

  /**
   `login`: validate, then issue a token (clock reads `createdRead`,
   `expiresRead`), then record the 'login' activity (clock read
   `activityRead`). On failure nothing changes and the login page is shown.
   */
  function Login(s: Server, h: Bcrypt, username: Option<string>, password: Option<string>,
                 newToken: string, createdRead: Time, expiresRead: Time, activityRead: Time): (r: Reply)
    ensures r.state.users == s.users && r.state.lock == s.lock
    ensures !Credentials(s, h, username, password) ==> r == Reply(s, LoginPage)
    ensures Credentials(s, h, username, password) ==>
      && r.page == IndexPage(newToken, None)
      && |r.state.tokens.rows| == |s.tokens.rows| + 1
      && r.state.tokens.rows[..|s.tokens.rows|] == s.tokens.rows
      && r.state.tokens.rows[|s.tokens.rows|].username == username.value
      && r.state.tokens.rows[|s.tokens.rows|].token == newToken
      && r.state.tokens.rows[|s.tokens.rows|].createdAt == createdRead
      && r.state.tokens.rows[|s.tokens.rows|].expiresAt == expiresRead + TokensDB.TokenLifetime
      && r.state.tokens == TokensDB.GenerateToken(s.tokens, username.value, newToken, createdRead, expiresRead).table
      && (forall now :: now < expiresRead + TokensDB.TokenLifetime ==> Verified(r.state, newToken, now))
      && r.state.activity == ActivityLogDB.Upsert(s.activity, username.value, ActivityLogDB.LastLogin, activityRead)
  {
    if !Credentials(s, h, username, password) then Reply(s, LoginPage)
    else
      var issued := TokensDB.GenerateToken(s.tokens, username.value, newToken, createdRead, expiresRead);
      var log := ActivityLogDB.UpdateActivity(s.activity, username.value, "login", activityRead).value;
      var r := Reply(s.(tokens := issued.table, activity := log), IndexPage(issued.token, None));
      assert forall now :: now < expiresRead + TokensDB.TokenLifetime ==> Verified(r.state, newToken, now) by {
        forall now | now < expiresRead + TokensDB.TokenLifetime ensures Verified(r.state, newToken, now) {
          var row := r.state.tokens.rows[|s.tokens.rows|];
          assert row.token == newToken && row.expiresAt > now;
        }
      }
      r
  }

  /**
   `register`: both fields must be given and non-empty, then `insert_user`
   (with `salt` the fresh bcrypt salt). The login page is shown either way.
   The insert is the rolled-back one, `UserDB.InsertUserRolledBack`: as
   written, a failed insert leaves the USER connection aborted
   (`UserDB.FailedInsertLocksOut`).
   */
  function Register(s: Server, h: Bcrypt, username: Option<string>, password: Option<string>, salt: Bytes): (r: Reply)
    ensures r.page == LoginPage
    ensures r.state.tokens == s.tokens && r.state.activity == s.activity && r.state.lock == s.lock
    ensures !(Given(username) && Given(password)) ==> r.state == s
    ensures Given(username) && Given(password) ==>
      r.state.users == UserDB.InsertUserRolledBack(s.users, h, username.value, password.value, salt)
  {
    if !Given(username) || !Given(password) then Reply(s, LoginPage)
    else Reply(s.(users := UserDB.InsertUserRolledBack(s.users, h, username.value, password.value, salt)), LoginPage)
  }

  /**
   A newly registered user can log in at once with the same password, provided
   the USER connection is healthy and the name fits its column.
   */
  lemma RegisterThenLogin(s: Server, h: Bcrypt, username: string, password: string, salt: Bytes,
                          newToken: string, c: Time, e: Time, a: Time)
    requires Accepts(h) && StandardDigest(h)
    requires username != "" && password != ""
    requires !s.users.aborted && UserDB.NulFree(username) && username !in s.users.rows
    requires |username| <= UserDB.VarcharSize
    ensures var s1 := Register(s, h, Some(username), Some(password), salt).state;
      Login(s1, h, Some(username), Some(password), newToken, c, e, a).page == IndexPage(newToken, None)
  {
  }

  /**
   Registering a name that is already taken changes nothing: the user who
   registered first still logs in with the first password.
   */
  lemma RegisterTwiceThenLogin(s: Server, h: Bcrypt, username: string, password: string, other: string,
                               salt1: Bytes, salt2: Bytes, newToken: string, c: Time, e: Time, a: Time)
    requires Accepts(h) && StandardDigest(h)
    requires username != "" && password != "" && other != ""
    requires !s.users.aborted && UserDB.NulFree(username) && username !in s.users.rows
    requires |username| <= UserDB.VarcharSize
    ensures var s1 := Register(s, h, Some(username), Some(password), salt1).state;
      var s2 := Register(s1, h, Some(username), Some(other), salt2).state;
      && s2.users == s1.users
      && Login(s2, h, Some(username), Some(password), newToken, c, e, a).page == IndexPage(newToken, None)
  {
  }

  /** A failed login adds no token row and records no activity. */
  lemma FailedLoginChangesNothing(s: Server, h: Bcrypt, username: Option<string>, password: Option<string>,
                                  newToken: string, c: Time, e: Time, a: Time)
    requires !Credentials(s, h, username, password)
    ensures Login(s, h, username, password, newToken, c, e, a).state == s
  {
  }

  // ---------------------------------------------------------------- home page

  /**
   `home_page`: a read-only check. A missing token is compared as SQL NULL and
   matches no row.
   */
  function HomePage(s: Server, token: Option<string>, inferenceResponse: Option<string>, now: Time): (p: Page)
    ensures p.IndexPage? <==> token.Some? && Verified(s, token.value, now)
    ensures p.IndexPage? ==> p.token == token.value && p.inferenceResponse == inferenceResponse
    ensures !p.IndexPage? ==> p == LoginPage
  {
    if token.Some? && Verified(s, token.value, now) then IndexPage(token.value, inferenceResponse)
    else LoginPage
  }

  /** The token a login hands out opens the home page until it expires, and not from then on. */
  lemma HomePageAfterLogin(s: Server, h: Bcrypt, username: string, password: string,
                           newToken: string, c: Time, e: Time, a: Time, now: Time)
    requires Credentials(s, h, Some(username), Some(password))
    requires forall i :: 0 <= i < |s.tokens.rows| ==> s.tokens.rows[i].token != newToken
    ensures var s1 := Login(s, h, Some(username), Some(password), newToken, c, e, a).state;
      HomePage(s1, Some(newToken), None, now).IndexPage? <==> now < e + TokensDB.TokenLifetime
  {
  }

  // ---------------------------------------------------------------- train

  /** How the training request gets past the lock. */
  datatype Entry =
    | Refused                                   // the token did not verify
    | Busy(token: string)                       // SET NX EX found a live key
    | Entered(token: string, username: string)  // this request now holds the key

  datatype Admission = Admission(state: Server, entry: Entry)

  /**
   The first half of `train`: resolve the username, verify the token, then
   `SET training_lock locked NX EX 300`. The username is looked up before the
   token is verified, whatever the verdict. The one time `now` stands for two
   clock reads: `datetime.now()` inside `verify_token` and Redis's own clock
   at the SET, taken to be the same instant.
   */
  function TrainEnter(s: Server, header: Option<string>, now: Time): (a: Admission)
    ensures a.state.users == s.users && a.state.tokens == s.tokens && a.state.activity == s.activity
    ensures a.entry.Refused? <==> !Verified(s, Str(header), now)
    ensures a.entry.Busy? <==> Verified(s, Str(header), now) && RedisLock.Held(s.lock, now)
    ensures !a.entry.Entered? ==> a.state == s
    ensures a.entry.Busy? ==> a.entry.token == Str(header)
    ensures a.entry.Entered? ==>
      && a.entry.token == Str(header)
      && a.state.lock == RedisLock.Present(now + RedisLock.LockTtl)
      && TokensDB.GetUsername(s.tokens.rows, Str(header)) == TokensDB.RowTuple(a.entry.username)
  {
    var token := Str(header);
    var username := Owner(s, token);
    if !Verified(s, token, now) then Admission(s, Refused)
    else
      TokensDB.VerifiedHasOwner(s.tokens.rows, token, now);
      var reply := RedisLock.SetNxEx(s.lock, now);
      if reply.acquired then Admission(s.(lock := reply.lock), Entered(token, username))
      else Admission(s, Busy(token))
  }

  /**
   How the protected block ends. `train_data` catches every Exception itself,
   so a run that cannot read the data or fit the model still returns normally:
   `Completed` covers it, and the reply is "Training completed". `Failed` is
   an exception from the 'training' activity write, caught by `except
   Exception` with its message reported. `Escaped` is an exception that is not
   an Exception and leaves the handler.
   */
  datatype Outcome = Completed | Failed(message: string) | Escaped

  const CompletedText: string := "Training completed"
  const FailedPrefix: string := "Training failed with "
  const InProgressText: string := "Training is already in progress"

  /**
   The second half of `train`: the protected block and its `finally`, which
   deletes the lock key on every path. The 'training' activity (clock read
   `done`) is written only after training returns.
   */
  function TrainExit(s: Server, token: string, username: string, outcome: Outcome, done: Time): (r: Reply)
    ensures r.state.lock == RedisLock.Absent
    ensures r.state.users == s.users && r.state.tokens == s.tokens
    ensures outcome.Completed? ==>
      && r.state.activity == ActivityLogDB.Upsert(s.activity, username, ActivityLogDB.LastTraining, done)
      && r.page == TrainStatus(CompletedText, token)
    ensures !outcome.Completed? ==> r.state.activity == s.activity
    ensures outcome.Failed? ==> r.page == TrainStatus(FailedPrefix + outcome.message, token)
    ensures outcome.Escaped? ==> r.page == ServerError
  {
    var released := s.(lock := RedisLock.Delete(s.lock));
    match outcome
    case Completed =>
      var log := ActivityLogDB.UpdateActivity(s.activity, username, "training", done).value;
      Reply(released.(activity := log), TrainStatus(CompletedText, token))
    case Failed(message) => Reply(released, TrainStatus(FailedPrefix + message, token))
    case Escaped => Reply(released, ServerError)
  }

  /** `train` as one request with no other request interleaved. */
  function Train(s: Server, header: Option<string>, now: Time, outcome: Outcome, done: Time): (r: Reply)
    ensures r.state.users == s.users && r.state.tokens == s.tokens
    // a bad token changes nothing
    ensures !Verified(s, Str(header), now) ==> r == Reply(s, LoginPage)
    // a live key: report, run nothing, leave the key alone
    ensures Verified(s, Str(header), now) && RedisLock.Held(s.lock, now) ==>
      r == Reply(s, TrainStatus(InProgressText, Str(header)))
    // acquired: the key is gone afterwards, and the activity is written only on completion
    ensures Verified(s, Str(header), now) && !RedisLock.Held(s.lock, now) ==>
      && r.state.lock == RedisLock.Absent
      && r.state.activity == (if outcome.Completed?
           then ActivityLogDB.Upsert(s.activity, Owner(s, Str(header)), ActivityLogDB.LastTraining, done)
           else s.activity)
  {
    var a := TrainEnter(s, header, now);
    match a.entry
    case Refused => Reply(s, LoginPage)
    case Busy(token) => Reply(s, TrainStatus(InProgressText, token))
    case Entered(token, username) => TrainExit(a.state, token, username, outcome, done)
  }

  /** Two requests one after the other: the second finds the key released and trains too. */
  lemma TrainTwiceInSequence(s: Server, header: Option<string>, t1: Time, o1: Outcome, d1: Time,
                             t2: Time, o2: Outcome, d2: Time)
    requires Verified(s, Str(header), t1) && Verified(s, Str(header), t2)
    requires !RedisLock.Held(s.lock, t1)
    ensures var s1 := Train(s, header, t1, o1, d1).state;
      TrainEnter(s1, header, t2).entry.Entered?
  {
  }

  /**
   The unconditional DELETE at the handler level. Request A enters at t0 and is
   still training when its key expires; B enters at t1; A's `finally` deletes
   B's key; C enters at t2 while B's key would still have been live. B and C
   are then training at the same time.
   */
  lemma TrainLostRelease(s: Server, hA: Option<string>, hB: Option<string>, hC: Option<string>,
                         t0: Time, t1: Time, t2: Time, outcome: Outcome, done: Time)
    requires !RedisLock.Held(s.lock, t0)
    requires Verified(s, Str(hA), t0) && Verified(s, Str(hB), t1) && Verified(s, Str(hC), t2)
    requires t0 + RedisLock.LockTtl < t1 <= t2 <= t1 + RedisLock.LockTtl
    ensures var a := TrainEnter(s, hA, t0);
      var b := TrainEnter(a.state, hB, t1);
      && a.entry.Entered? && b.entry.Entered?
      && RedisLock.Held(b.state.lock, t2)
      && var aDone := TrainExit(b.state, a.entry.token, a.entry.username, outcome, done);
         TrainEnter(aDone.state, hC, t2).entry.Entered?
  {
  }

  // ---------------------------------------------------------------- infer

  /**
   `infer`: resolve the username, verify the token; with a non-empty query,
   classify it, then record the 'inference' activity (clock read `done`).
   */
  function Infer(s: Server, token: Option<string>, query: Option<string>, now: Time, done: Time,
                 model: Classifier.StoredModel, stem: string -> string): (r: Reply)
    ensures r.state.users == s.users && r.state.tokens == s.tokens && r.state.lock == s.lock
    ensures !Verified(s, Str(token), now) ==> r == Reply(s, LoginPage)
    ensures Verified(s, Str(token), now) && !Given(query) ==>
      r == Reply(s, HomeRedirect("No query passed", Str(token)))
    ensures Verified(s, Str(token), now) && Given(query) ==>
      && r.state.activity == ActivityLogDB.Upsert(s.activity, Owner(s, Str(token)), ActivityLogDB.LastInference, done)
      && r.page == HomeRedirect(query.value + " - " + Classifier.Infer(model, stem, query.value), Str(token))
  {
    var tok := Str(token);
    var username := Owner(s, tok);
    if !Verified(s, tok, now) then Reply(s, LoginPage)
    else if !Given(query) then Reply(s, HomeRedirect("No query passed", tok))
    else
      var result := query.value + " - " + Classifier.Infer(model, stem, query.value);
      var log := ActivityLogDB.UpdateActivity(s.activity, username, "inference", done).value;
      Reply(s.(activity := log), HomeRedirect(result, tok))
  }

  /** The 'inference' column moves only for a verified token with a non-empty query. */
  lemma InferRecordsOnlyWhenServed(s: Server, token: Option<string>, query: Option<string>, now: Time, done: Time,
                                   model: Classifier.StoredModel, stem: string -> string)
    ensures var r := Infer(s, token, query, now, done, model, stem);
      r.state.activity != s.activity ==> Verified(s, Str(token), now) && Given(query)
  {
  }

  /** With a token that fails verification, no handler changes any table or the lock. */
  lemma BadTokenChangesNothing(s: Server, token: Option<string>, query: Option<string>, now: Time, done: Time,
                               outcome: Outcome, model: Classifier.StoredModel, stem: string -> string,
                               inferenceResponse: Option<string>)
    requires !Verified(s, Str(token), now)
    ensures Train(s, token, now, outcome, done) == Reply(s, LoginPage)
    ensures Infer(s, token, query, now, done, model, stem) == Reply(s, LoginPage)
    ensures HomePage(s, token, inferenceResponse, now) == LoginPage
  {
  }
}

=== FILE: base64.dfy ===
/**
 Base64 encoding with the standard alphabet and `=` padding, as defined in
 section 4 of RFC 4648 (Python's `base64.b64encode` / `base64.b64decode`).
 */
module Base64 {
  import opened Common

  const Pad: char := '='

  type sextet = v: int | 0 <= v < 64

  /** The alphabet character for a 6-bit group. */
  function CharOf(v: sextet): (c: char)
  {
    if v < 26 then ('A' as int + v) as char
    else if v < 52 then ('a' as int + (v - 26)) as char
    else if v < 62 then ('0' as int + (v - 52)) as char
    else if v == 62 then '+'
    else '/'
  }

  /**
   The 6-bit group a character stands for in Table 1 of RFC 4648
   (A-Z, a-z, 0-9, '+', '/'), or None if it is not in the alphabet.
   */
  function ValueOf(c: char): (r: Option<sextet>)
  {
    if 'A' <= c <= 'Z' then Some(c as int - 'A' as int)
    else if 'a' <= c <= 'z' then Some(c as int - 'a' as int + 26)
    else if '0' <= c <= '9' then Some(c as int - '0' as int + 52)
    else if c == '+' then Some(62)
    else if c == '/' then Some(63)
    else None
  }

  /** Decoding a character inverts encoding a group, and nothing but the alphabet decodes. */
  lemma ValueOfCharOf(v: sextet)
    ensures ValueOf(CharOf(v)) == Some(v)
    ensures CharOf(v) != Pad
  {
  }

  /** Three octets as four characters (one full quantum). */
  function EncodeQuantum(a: byte, b: byte, c: byte): (q: string)
  {
    [CharOf(a / 4), CharOf((a % 4) * 16 + b / 16), CharOf((b % 16) * 4 + c / 64), CharOf(c % 64)]
  }

  /**
   Base64 encoding: full quanta of three octets, then a final quantum of one octet
   (two characters and `==`) or two octets (three characters and `=`).
   */
  function Encode(s: Bytes): (r: string)
    ensures |r| == 4 * ((|s| + 2) / 3)
    decreases |s|
  {
    if |s| == 0 then ""
    else if |s| == 1 then [CharOf(s[0] / 4), CharOf((s[0] % 4) * 16), Pad, Pad]
    else if |s| == 2 then [CharOf(s[0] / 4), CharOf((s[0] % 4) * 16 + s[1] / 16), CharOf((s[1] % 16) * 4), Pad]
    else EncodeQuantum(s[0], s[1], s[2]) + Encode(s[3..])
  }

  /** The octets a quantum's 6-bit groups carry: 6+2, 4+4 and 2+6 bits. */
  function HighOctet(i0: sextet, i1: sextet): byte { i0 as int * 4 + i1 as int / 16 }

  function MiddleOctet(i1: sextet, i2: sextet): byte { (i1 as int % 16) * 16 + i2 as int / 4 }

  function LowOctet(i2: sextet, i3: sextet): byte { (i2 as int % 4) * 64 + i3 as int }

  /** Four alphabet characters as three octets; None if any is outside the alphabet. */
  function DecodeQuantum(q: string): (r: Option<Bytes>)
    requires |q| == 4
    ensures r.Some? ==> |r.value| == 3
  {
    match (ValueOf(q[0]), ValueOf(q[1]), ValueOf(q[2]), ValueOf(q[3]))
    case (Some(i0), Some(i1), Some(i2), Some(i3)) =>
      Some([HighOctet(i0, i1), MiddleOctet(i1, i2), LowOctet(i2, i3)])
    case _ => None
  }

  /** The last quantum of an encoding: `xx==`, `xxx=` or a full `xxxx`. */
  function DecodeFinal(q: string): (r: Option<Bytes>)
    requires |q| == 4
    ensures r.Some? ==> 1 <= |r.value| <= 3
  {
    if q[2] == Pad && q[3] == Pad then
      match (ValueOf(q[0]), ValueOf(q[1]))
      case (Some(i0), Some(i1)) => Some([HighOctet(i0, i1)])
      case _ => None
    else if q[3] == Pad then
      match (ValueOf(q[0]), ValueOf(q[1]), ValueOf(q[2]))
      case (Some(i0), Some(i1), Some(i2)) => Some([HighOctet(i0, i1), MiddleOctet(i1, i2)])
      case _ => None
    else DecodeQuantum(q)
  }

  /**
   Strict Base64 decoding: the text is a sequence of full quanta, only the last
   of which may carry padding. Anything else is an error (None).
   */
  function Decode(t: string): (r: Option<Bytes>)
    ensures r.Some? ==> |t| % 4 == 0
    decreases |t|
  {
    if |t| == 0 then Some([])
    else if |t| < 4 then None
    else if |t| == 4 then DecodeFinal(t)
    else
      match (DecodeQuantum(t[..4]), Decode(t[4..]))
      case (Some(head), Some(tail)) => Some(head + tail)
      case _ => None
  }

  lemma OctetsRoundTrip(a: byte, b: byte, c: byte)
    ensures HighOctet(a / 4, (a % 4) * 16 + b / 16) == a
    ensures MiddleOctet((a % 4) * 16 + b / 16, (b % 16) * 4 + c / 64) == b
    ensures LowOctet((b % 16) * 4 + c / 64, c % 64) == c
  {
  }

  lemma QuantumRoundTrip(a: byte, b: byte, c: byte)
    ensures DecodeQuantum(EncodeQuantum(a, b, c)) == Some([a, b, c])
  {
    ValueOfCharOf(a / 4);
    ValueOfCharOf((a % 4) * 16 + b / 16);
    ValueOfCharOf((b % 16) * 4 + c / 64);
    ValueOfCharOf(c % 64);
    OctetsRoundTrip(a, b, c);
  }

  lemma FinalOneRoundTrip(s: Bytes)
    requires |s| == 1
    ensures Decode(Encode(s)) == Some(s)
  {
    var a := s[0];
    ValueOfCharOf(a / 4);
    ValueOfCharOf((a % 4) * 16);
    OctetsRoundTrip(a, 0, 0);
    assert s == [a];
  }

  lemma FinalTwoRoundTrip(s: Bytes)
    requires |s| == 2
    ensures Decode(Encode(s)) == Some(s)
  {
    var a, b := s[0], s[1];
    ValueOfCharOf(a / 4);
    ValueOfCharOf((a % 4) * 16 + b / 16);
    ValueOfCharOf((b % 16) * 4);
    OctetsRoundTrip(a, b, 0);
    assert s == [a, b];
  }

  lemma FinalThreeRoundTrip(s: Bytes)
    requires |s| == 3
    ensures Decode(Encode(s)) == Some(s)
  {
    var a, b, c := s[0], s[1], s[2];
    var q := EncodeQuantum(a, b, c);
    assert s[3..] == [];
    assert Encode(s) == q;
    QuantumRoundTrip(a, b, c);
    ValueOfCharOf((b % 16) * 4 + c / 64);
    ValueOfCharOf(c % 64);
    assert s == [a, b, c];
  }

  /** Decoding inverts encoding, for every octet string. */
  lemma {:induction false} RoundTrip(s: Bytes)
    ensures Decode(Encode(s)) == Some(s)
    decreases |s|
  {
    if |s| == 1 {
      FinalOneRoundTrip(s);
    } else if |s| == 2 {
      FinalTwoRoundTrip(s);
    } else if |s| == 3 {
      FinalThreeRoundTrip(s);
    } else if |s| > 3 {
      QuantumRoundTrip(s[0], s[1], s[2]);
      RoundTrip(s[3..]);
      DecodeFront(EncodeQuantum(s[0], s[1], s[2]), Encode(s[3..]), [s[0], s[1], s[2]], s[3..]);
      assert s == [s[0], s[1], s[2]] + s[3..];
    }
  }

  /** A full quantum in front of more text decodes to its octets in front of the rest's. */
  lemma DecodeFront(q: string, rest: string, head: Bytes, tail: Bytes)
    requires |q| == 4 && |rest| > 0
    requires DecodeQuantum(q) == Some(head) && Decode(rest) == Some(tail)
    ensures Decode(q + rest) == Some(head + tail)
  {
  }

  /** Every character of an encoding is in the alphabet or is padding. */
  lemma {:induction false} EncodeIsAlphabet(s: Bytes)
    ensures forall i :: 0 <= i < |Encode(s)| ==> ValueOf(Encode(s)[i]).Some? || Encode(s)[i] == Pad
    decreases |s|
  {
    var r := Encode(s);
    if |s| >= 3 {
      EncodeIsAlphabet(s[3..]);
    }
    forall i | 0 <= i < |r| && r[i] != Pad
      ensures ValueOf(r[i]).Some?
    {
      if |s| >= 3 && i >= 4 {
        assert r[i] == Encode(s[3..])[i - 4];
      } else {
        var v :| 0 <= v < 64 && r[i] == CharOf(v);
        ValueOfCharOf(v);
      }
    }
  }
}

=== FILE: classifier.dfy ===
/**
 The inference entry point of `MovieReviewClassifier`: the label encoding used
 for training, its decoding at inference, and the text `infer` returns. The
 fitted model is a parameter.
 */
module Classifier {
  import opened Common
  import Preprocess

  /** `preprocess_data`'s `map_dict`: the dataset's sentiment column as the numeric training label. */
  function SentimentNumeric(sentiment: string): (r: Option<int>)
    ensures r == Some(1) <==> sentiment == "positive"
    ensures r == Some(0) <==> sentiment == "negative"
    ensures r.None? <==> sentiment != "positive" && sentiment != "negative"
  {
    if sentiment == "positive" then Some(1)
    else if sentiment == "negative" then Some(0)
    else None
  }

  /** `infer`'s `review_map`: a predicted label as text; any other label is a KeyError (None). */
  function LabelText(pred: int): (r: Option<string>)
    ensures r.Some? <==> pred == 0 || pred == 1
    ensures pred == 0 ==> r == Some("Negative")
    ensures pred == 1 ==> r == Some("Positive")
  {
    if pred == 0 then Some("Negative")
    else if pred == 1 then Some("Positive")
    else None
  }

  /**
   The labels training and inference use agree: a review labelled
   "positive" (resp. "negative") in the dataset is reported as "Positive"
   (resp. "Negative") when the model predicts its training label, and no
   other dataset value has a label.
   */
  lemma LabelsAgree(sentiment: string)
    ensures SentimentNumeric(sentiment).Some? <==> sentiment in {"positive", "negative"}
    ensures sentiment == "positive" ==> LabelText(SentimentNumeric(sentiment).value) == Some("Positive")
    ensures sentiment == "negative" ==> LabelText(SentimentNumeric(sentiment).value) == Some("Negative")
  {
  }

  /**
   The pickled model `infer` finds: it cannot be opened or unpickled, it
   unpickles to a falsy value, or it is a fitted pipeline whose `predict`
   maps preprocessed text to a label.
   */
  datatype StoredModel = Unloadable | Falsy | Loaded(predict: string -> int)

  /** The message of `infer`'s exception handler: a plain string, so it never shows the exception. */
  const ExceptionText: string := "Exception : exc"

  const NoModelText: string := "No model exist! Train the data"

  /** `infer(test_data)`: the label text, or the fixed messages of its failure paths. */
  function Infer(model: StoredModel, stem: string -> string, text: string): (r: string)
    ensures model.Unloadable? ==> r == ExceptionText
    ensures model.Falsy? ==> r == NoModelText
    ensures model.Loaded? ==>
      var pred := model.predict(Preprocess.Preprocess(stem, text));
      r == (if pred == 0 then "Negative" else if pred == 1 then "Positive" else ExceptionText)
  {
    Classify(model, Preprocess.Preprocess(stem, text))
  }

  /** What `infer` answers once the review has been preprocessed. */
  function Classify(model: StoredModel, processed: string): string
  {
    match model
    case Unloadable => ExceptionText
    case Falsy => NoModelText
    case Loaded(predict) =>
      match LabelText(predict(processed))
      case Some(name) => name
      case None => ExceptionText
  }

  /** Inference sees the review only through its preprocessed form. */
  lemma InferDependsOnPreprocessed(model: StoredModel, stem: string -> string, a: string, b: string)
    ensures Preprocess.Preprocess(stem, a) == Preprocess.Preprocess(stem, b) ==>
      Infer(model, stem, a) == Infer(model, stem, b)
  {
  }
}

=== FILE: common.dfy ===
/**
 Shared vocabulary of the model: optional values, bytes and the clock.
 */
module Common {

  /** A value that may be absent; stands for Python's `None` and SQL's `NULL`. */
  datatype Option<+T> = None | Some(value: T)

  /** One octet, as in a Python `bytes` object. */
  type byte = b: int | 0 <= b < 256

  type Bytes = seq<byte>

  /**
   Wall-clock time as an integer number of microseconds, the resolution of
   `datetime.datetime.now()` and of a PostgreSQL TIMESTAMP column. Every read of
   the clock is an explicit parameter of the operation that makes it.
   */
  type Time = int

  const MicrosPerSecond: int := 1_000_000
}

=== FILE: hashing.dfy ===
/**
 Password hashing as `Hashing.encrypt` does it: bcrypt with a fresh salt, then
 Base64 so the digest can be stored in a text column.

 bcrypt is foreign code. It is a pair of functions supplied by the caller:
 `hashpw(password, salt)` and `checkpw(password, digest)`. Both take the
 password as text; its UTF-8 encoding is part of them. Three hypotheses
 about them appear, each in the requires of the lemmas that need it:
 `Accepts` (a digest made from a password checks against that password),
 `StandardDigest` (a digest is 60 bytes long) and the idealised `Binding`
 (no other password checks against it).
 */
module Hashing {
  import opened Common
  import Base64

  datatype Bcrypt = Bcrypt(hashpw: (string, Bytes) -> Bytes, checkpw: (string, Bytes) -> bool)

  /** bcrypt's defining promise: `checkpw(p, hashpw(p, salt))` holds for every salt. */
  ghost predicate Accepts(h: Bcrypt)
  {
    forall p, salt :: h.checkpw(p, h.hashpw(p, salt))
  }

  /**
   An idealised bcrypt that also rejects every other password. Real bcrypt only
   approximates this (it reads at most 72 bytes of the password); the model uses
   it for the "wrong password is refused" property and for nothing else.
   */
  ghost predicate Binding(h: Bcrypt)
  {
    forall p, q, salt :: h.checkpw(q, h.hashpw(p, salt)) ==> q == p
  }

  /** bcrypt's digest is the 60-byte modular-crypt string `$2b$12$…`. */
  const DigestLength: nat := 60

  /** A bcrypt whose every digest has the standard length. */
  ghost predicate StandardDigest(h: Bcrypt)
  {
    forall p, salt :: |h.hashpw(p, salt)| == DigestLength
  }

  /**
   The stored form of a password: Base64 of bcrypt's digest under `salt`, the
   value `bcrypt.gensalt()` would have returned.
   */
  function Encrypt(h: Bcrypt, password: string, salt: Bytes): (stored: string)
    ensures Base64.Decode(stored) == Some(h.hashpw(password, salt))
    ensures |stored| == 4 * ((|h.hashpw(password, salt)| + 2) / 3)
  {
    Base64.RoundTrip(h.hashpw(password, salt));
    Base64.Encode(h.hashpw(password, salt))
  }
}

=== FILE: preprocess.dfy ===
/**
 The review-text normalisation of `MovieReviewClassifier.preprocess`: strip
 surrounding whitespace, delete `<...>` tags, turn every character that is not
 an ASCII letter into a space, lower-case, split into words, stem each word and
 join the stems with single spaces. The Porter stemmer is a parameter.
 */
module Preprocess {
  import opened Common

  /** Python's `str.isspace()`: the characters `str.strip()` and `str.split()` treat as whitespace. */
  predicate IsSpace(c: char)
  {
    || '\t' <= c <= '\r'
    || '\U{1C}' <= c <= '\U{1F}'
    || c == ' ' || c == '\U{85}' || c == '\U{A0}' || c == '\U{1680}'
    || '\U{2000}' <= c <= '\U{200A}'
    || c == '\U{2028}' || c == '\U{2029}' || c == '\U{202F}' || c == '\U{205F}' || c == '\U{3000}'
  }

  predicate SpaceFree(w: string)
  {
    forall i :: 0 <= i < |w| ==> !IsSpace(w[i])
  }

  predicate IsAsciiLetter(c: char)
  {
    'a' <= c <= 'z' || 'A' <= c <= 'Z'
  }

  // ---------------------------------------------------------------- strip

  predicate AllSpace(sp: string)
  {
    forall i :: 0 <= i < |sp| ==> IsSpace(sp[i])
  }

  /** The length of the longest whitespace prefix. */
  function LeadingSpaces(s: string): (n: nat)
    ensures n <= |s|
    ensures forall i :: 0 <= i < n ==> IsSpace(s[i])
    ensures n < |s| ==> !IsSpace(s[n])
    decreases |s|
  {
    if |s| > 0 && IsSpace(s[0]) then 1 + LeadingSpaces(s[1..]) else 0
  }

  /** The length of the longest whitespace suffix. */
  function TrailingSpaces(s: string): (n: nat)
    ensures n <= |s|
    ensures forall i :: |s| - n <= i < |s| ==> IsSpace(s[i])
    ensures n < |s| ==> !IsSpace(s[|s| - n - 1])
    decreases |s|
  {
    if |s| > 0 && IsSpace(s[|s| - 1]) then 1 + TrailingSpaces(s[..|s| - 1]) else 0
  }

  /** `str.strip()`: the text between the leading and the trailing whitespace. */
  function Strip(s: string): (r: string)
    ensures LeadingSpaces(s) + |r| <= |s|
    ensures r == s[LeadingSpaces(s)..LeadingSpaces(s) + |r|]
    ensures AllSpace(s[..LeadingSpaces(s)]) && AllSpace(s[LeadingSpaces(s) + |r|..])
    ensures |r| > 0 ==> !IsSpace(r[0]) && !IsSpace(r[|r| - 1])
  {
    var a := LeadingSpaces(s);
    var t := s[a..];
    var n := TrailingSpaces(t);
    var r := t[..|t| - n];
    SliceOfSuffix(s, a, n);
    var front, back := s[..a], s[a + |r|..];
    assert AllSpace(front) by {
      forall i | 0 <= i < |front| ensures IsSpace(front[i]) {
        assert front[i] == s[i];
      }
    }
    assert AllSpace(back) by {
      forall i | 0 <= i < |back| ensures IsSpace(back[i]) {
        assert back[i] == t[|r| + i];
      }
    }
    r
  }

  /** How the two trims of `Strip` sit inside the original text. */
  lemma SliceOfSuffix(s: string, a: nat, n: nat)
    requires a <= |s| && n <= |s| - a
    ensures s[a..][..|s| - a - n] == s[a..|s| - n]
    ensures s[a..][|s| - a - n..] == s[|s| - n..]
  {
  }

  // ---------------------------------------------------------------- tags

  /** The position of the first `c` in `s`, or None if there is none. */
  function IndexOf(s: string, c: char): (r: Option<nat>)
    ensures r.Some? ==> r.value < |s| && s[r.value] == c && c !in s[..r.value]
    ensures r.None? <==> c !in s
    decreases |s|
  {
    if |s| == 0 then None
    else if s[0] == c then Some(0)
    else
      match IndexOf(s[1..], c)
      case None => None
      case Some(k) =>
        assert s[..k + 1] == [s[0]] + s[1..][..k];
        Some(k + 1)
  }

  /** No `<` is followed, anywhere later, by a `>`: the text holds no match of `<[^>]*>`. */
  predicate TagFree(s: string)
  {
    forall i, j :: 0 <= i < j < |s| ==> !(s[i] == '<' && s[j] == '>')
  }

  /**
   `re.sub("<[^>]*>", "", text)`: scanning left to right, a `<` with a `>`
   somewhere after it starts a tag that runs to the first such `>` and is
   deleted; a `<` with no `>` after it is kept, as is every other character.
   */
  function StripTags(s: string): (r: string)
    ensures |r| <= |s|
    ensures TagFree(r)
    ensures '>' !in s ==> r == s
    decreases |s|
  {
    if |s| == 0 then ""
    else if s[0] == '<' then
      match IndexOf(s[1..], '>')
      case Some(k) => StripTags(s[k + 2..])
      case None => KeepFirst(s)
    else KeepFirst(s)
  }

  /** The first character survives and scanning resumes after it. */
  function KeepFirst(s: string): (r: string)
    requires |s| > 0
    requires s[0] == '<' ==> '>' !in s[1..]
    ensures |r| <= |s|
    ensures TagFree(r)
    ensures '>' !in s ==> r == s
    decreases |s|, 0
  {
    var rest := StripTags(s[1..]);
    var r := [s[0]] + rest;
    assert '>' !in s ==> '>' !in s[1..];
    assert s == [s[0]] + s[1..];
    forall i, j | 0 <= i < j < |r| ensures !(r[i] == '<' && r[j] == '>') {
      if i > 0 {
        assert r[i] == rest[i - 1] && r[j] == rest[j - 1];
      }
    }
    r
  }

  /** Deleting tags only deletes: every character of the result comes from the input. */
  lemma {:induction false} StripTagsFromInput(s: string)
    ensures forall i :: 0 <= i < |StripTags(s)| ==> StripTags(s)[i] in s
    decreases |s|
  {
    if |s| > 0 {
      var r := StripTags(s);
      if s[0] == '<' && IndexOf(s[1..], '>').Some? {
        var k := IndexOf(s[1..], '>').value;
        StripTagsSkipsTag(s, k);
        StripTagsFromInput(s[k + 2..]);
        forall i | 0 <= i < |r| ensures r[i] in s {
          var j :| 0 <= j < |s[k + 2..]| && s[k + 2..][j] == r[i];
          assert s[k + 2 + j] == r[i];
        }
      } else {
        StripTagsKeepsFirst(s);
        StripTagsFromInput(s[1..]);
        forall i | 0 < i < |r| ensures r[i] in s {
          var j :| 0 <= j < |s[1..]| && s[1..][j] == r[i];
          assert s[j + 1] == r[i];
        }
      }
    }
  }

  /** Tag-free text is left unchanged. */
  lemma {:induction false} TagFreeUnchanged(s: string)
    requires TagFree(s)
    ensures StripTags(s) == s
    decreases |s|
  {
    if |s| > 0 {
      var tail := s[1..];
      assert TagFree(tail) by {
        forall i, j | 0 <= i < j < |tail| ensures !(tail[i] == '<' && tail[j] == '>') {
          assert tail[i] == s[i + 1] && tail[j] == s[j + 1];
        }
      }
      if s[0] == '<' {
        assert '>' !in tail by {
          forall j | 0 <= j < |tail| ensures tail[j] != '>' {
            assert s[j + 1] == tail[j];
          }
        }
      }
      TagFreeUnchanged(tail);
      assert s == [s[0]] + tail;
    }
  }

  /** Deleting tags a second time changes nothing. */
  lemma StripTagsIdempotent(s: string)
    ensures StripTags(StripTags(s)) == StripTags(s)
  {
    TagFreeUnchanged(StripTags(s));
  }

  /**
   The leftmost complete tag is deleted: text with no `<` before it is kept,
   everything from that `<` to the first `>` after it goes, and scanning
   resumes after the `>`.
   */
  lemma {:induction false} StripTagsDeletesLeftmostTag(x: string, y: string, z: string)
    requires '<' !in x
    requires '>' !in y
    ensures StripTags(x + "<" + y + ">" + z) == x + StripTags(z)
    decreases |x|
  {
    var s := x + "<" + y + ">" + z;
    if |x| == 0 {
      var t := y + ">" + z;
      assert s == "<" + t && s[1..] == t;
      FirstCloser(y, z);
      StripTagsSkipsTag(s, |y|);
      assert s[|y| + 2..] == t[|y| + 1..] == z;
    } else {
      var t := x[1..] + "<" + y + ">" + z;
      assert s[0] == x[0] && s[1..] == t;
      assert s[0] != '<';
      StripTagsKeepsFirst(s);
      StripTagsDeletesLeftmostTag(x[1..], y, z);
      assert StripTags(s) == [x[0]] + (x[1..] + StripTags(z));
      Associative([x[0]], x[1..], StripTags(z));
      TakeDrop(x, 1);
      assert x[..1] == [x[0]];
    }
  }

  /** The first `>` of `y + ">" + z` is the one after `y` when `y` has none. */
  lemma FirstCloser(y: string, z: string)
    requires '>' !in y
    ensures IndexOf(y + ">" + z, '>') == Some(|y|)
  {
    var t := y + ">" + z;
    assert t[|y|] == '>';
    assert t[..|y|] == y;
  }

  /** The first `>` of `a + b` is the first `>` of `a` when `a` has one. */
  lemma IndexOfAppend(a: string, b: string, c: char)
    requires c in a
    ensures IndexOf(a + b, c) == IndexOf(a, c)
  {
    var k := IndexOf(a, c).value;
    assert (a + b)[k] == c;
    assert (a + b)[..k] == a[..k];
  }

  /** Text with no `>` after the point where a tag could close is kept verbatim: an unclosed `<` stays. */
  lemma {:induction false} StripTagsKeepsUnclosed(x: string, w: string)
    requires '>' !in w
    ensures StripTags(x + w) == StripTags(x) + w
    decreases |x|
  {
    if |x| == 0 {
      assert x + w == w;
      assert TagFree(w);
      TagFreeUnchanged(w);
    } else if x[0] == '<' && '>' in x[1..] {
      var k := IndexOf(x[1..], '>').value;
      StripTagsKeepsUnclosed(x[k + 2..], w);
      ClosedTagThenUnclosed(x, w, k);
    } else {
      StripTagsKeepsUnclosed(x[1..], w);
      KeptFirstThenUnclosed(x, w);
    }
  }

  /** The step of StripTagsKeepsUnclosed where `x` opens with a tag that closes inside `x`. */
  lemma ClosedTagThenUnclosed(x: string, w: string, k: nat)
    requires |x| > 0 && x[0] == '<' && '>' in x[1..]
    requires IndexOf(x[1..], '>') == Some(k)
    requires StripTags(x[k + 2..] + w) == StripTags(x[k + 2..]) + w
    ensures StripTags(x + w) == StripTags(x) + w
  {
    var s := x + w;
    assert s[0] == '<';
    DropAppend(x, w, 1);
    IndexOfAppend(x[1..], w, '>');
    DropAppend(x, w, k + 2);
    StripTagsSkipsTag(s, k);
    StripTagsSkipsTag(x, k);
  }

  lemma TakeDrop(s: string, n: nat)
    requires n <= |s|
    ensures s == s[..n] + s[n..]
  {
  }

  lemma DropAppend(a: string, b: string, n: nat)
    requires n <= |a|
    ensures (a + b)[n..] == a[n..] + b
  {
  }

  /** A leading `<` whose first `>` is at `k + 1` opens a tag that is deleted. */
  lemma StripTagsSkipsTag(s: string, k: nat)
    requires |s| > 0 && s[0] == '<' && IndexOf(s[1..], '>') == Some(k)
    ensures StripTags(s) == StripTags(s[k + 2..])
  {
  }

  /** The step of StripTagsKeepsUnclosed where the first character of `x` is kept. */
  lemma KeptFirstThenUnclosed(x: string, w: string)
    requires '>' !in w
    requires |x| > 0 && !(x[0] == '<' && '>' in x[1..])
    requires StripTags(x[1..] + w) == StripTags(x[1..]) + w
    ensures StripTags(x + w) == StripTags(x) + w
  {
    var s := x + w;
    var t := x[1..];
    assert s[0] == x[0];
    DropAppend(x, w, 1);
    if x[0] == '<' {
      NotInAppend(t, w, '>');
    }
    StripTagsKeepsFirst(s);
    StripTagsKeepsFirst(x);
    assert StripTags(s) == [x[0]] + (StripTags(t) + w);
    Associative([x[0]], StripTags(t), w);
  }

  lemma Associative(a: string, b: string, c: string)
    ensures a + (b + c) == (a + b) + c
  {
  }

  lemma NotInAppend(a: string, b: string, c: char)
    requires c !in a && c !in b
    ensures c !in a + b
  {
  }

  /** A first character that opens no complete tag is kept. */
  lemma StripTagsKeepsFirst(s: string)
    requires |s| > 0 && (s[0] == '<' ==> '>' !in s[1..])
    ensures StripTags(s) == [s[0]] + StripTags(s[1..])
  {
  }

  /** Text in front that holds no `<` is kept verbatim. */
  lemma {:induction false} StripTagsKeepsPrefix(w: string, x: string)
    requires '<' !in w
    ensures StripTags(w + x) == w + StripTags(x)
    decreases |w|
  {
    if |w| > 0 {
      assert (w + x)[0] == w[0];
      assert (w + x)[1..] == w[1..] + x;
      StripTagsKeepsPrefix(w[1..], x);
      assert w == [w[0]] + w[1..];
    } else {
      assert w + x == x;
    }
  }

  // ---------------------------------------------------------------- letters and case

  /** `re.sub('[^a-zA-Z]', ' ', text)`: every character that is not an ASCII letter becomes a space. */
  function LettersOnly(s: string): (r: string)
    ensures |r| == |s|
    ensures forall i :: 0 <= i < |s| ==> r[i] == (if IsAsciiLetter(s[i]) then s[i] else ' ')
    ensures forall i :: 0 <= i < |r| ==> IsAsciiLetter(r[i]) || r[i] == ' '
    decreases |s|
  {
    if |s| == 0 then ""
    else [if IsAsciiLetter(s[0]) then s[0] else ' '] + LettersOnly(s[1..])
  }

  function LowerChar(c: char): char
  {
    if 'A' <= c <= 'Z' then (c as int - 'A' as int + 'a' as int) as char else c
  }

  /**
   `str.lower()` on ASCII: upper-case letters become lower-case, everything
   else is kept. At this point of the pipeline the text is ASCII only.
   */
  function Lower(s: string): (r: string)
    ensures |r| == |s|
    ensures forall i :: 0 <= i < |s| ==> r[i] == LowerChar(s[i])
    ensures forall i :: 0 <= i < |r| ==> !('A' <= r[i] <= 'Z')
    decreases |s|
  {
    if |s| == 0 then "" else [LowerChar(s[0])] + Lower(s[1..])
  }

  /** After both character steps, only lower-case ASCII letters and spaces remain. */
  lemma LowerLettersOnly(s: string)
    ensures forall i :: 0 <= i < |s| ==> 'a' <= Lower(LettersOnly(s))[i] <= 'z' || Lower(LettersOnly(s))[i] == ' '
    ensures forall i :: 0 <= i < |s| ==> (IsAsciiLetter(s[i]) <==> Lower(LettersOnly(s))[i] != ' ')
  {
  }

  // ---------------------------------------------------------------- split and join

  /** The length of the run of non-whitespace at the front of `s`. */
  function WordLen(s: string): (n: nat)
    ensures n <= |s|
    ensures forall i :: 0 <= i < n ==> !IsSpace(s[i])
    ensures n < |s| ==> IsSpace(s[n])
    decreases |s|
  {
    if |s| == 0 || IsSpace(s[0]) then 0 else 1 + WordLen(s[1..])
  }

  /** `str.split()` with no separator: the maximal runs of non-whitespace, in order. */
  function Split(s: string): (r: seq<string>)
    ensures ProperWords(r)
    ensures forall k, i :: 0 <= k < |r| && 0 <= i < |r[k]| ==> r[k][i] in s
    decreases |s|
  {
    if |s| == 0 then []
    else if IsSpace(s[0]) then
      var r := Split(s[1..]);
      assert forall k, i :: 0 <= k < |r| && 0 <= i < |r[k]| ==> r[k][i] in s by {
        forall k, i | 0 <= k < |r| && 0 <= i < |r[k]| ensures r[k][i] in s {
          var j :| 0 <= j < |s[1..]| && s[1..][j] == r[k][i];
          assert s[j + 1] == r[k][i];
        }
      }
      r
    else
      var n := WordLen(s);
      var rest := Split(s[n..]);
      var r := [s[..n]] + rest;
      assert forall k, i :: 0 <= k < |r| && 0 <= i < |r[k]| ==> r[k][i] in s by {
        forall k, i | 0 <= k < |r| && 0 <= i < |r[k]| ensures r[k][i] in s {
          if k == 0 {
            assert r[0][i] == s[i];
          } else {
            assert r[k] == rest[k - 1];
            var j :| 0 <= j < |s[n..]| && s[n..][j] == r[k][i];
            assert s[n + j] == r[k][i];
          }
        }
      }
      r
  }

  /** `' '.join(words)`. */
  function Join(ws: seq<string>): (r: string)
    decreases |ws|
  {
    if |ws| == 0 then ""
    else if |ws| == 1 then ws[0]
    else ws[0] + " " + Join(ws[1..])
  }

  predicate ProperWords(ws: seq<string>)
  {
    forall k :: 0 <= k < |ws| ==> |ws[k]| > 0 && SpaceFree(ws[k])
  }

  /** A word followed by whitespace (or nothing) is split off whole. */
  lemma SplitWord(w: string, rest: string)
    requires |w| > 0 && SpaceFree(w)
    requires |rest| == 0 || IsSpace(rest[0])
    ensures Split(w + rest) == [w] + Split(rest)
  {
    var s := w + rest;
    assert !IsSpace(s[0]);
    var n := WordLen(s);
    assert forall i :: 0 <= i < |w| ==> s[i] == w[i];
    assert |rest| > 0 ==> s[|w|] == rest[0];
    assert n == |w|;
    assert s[..n] == w;
    assert s[n..] == rest;
  }

  /** Leading whitespace is ignored by the split. */
  lemma {:induction false} SplitSkipsSpaces(sp: string, x: string)
    requires AllSpace(sp)
    ensures Split(sp + x) == Split(x)
    decreases |sp|
  {
    if |sp| > 0 {
      assert (sp + x)[1..] == sp[1..] + x;
      SplitSkipsSpaces(sp[1..], x);
    } else {
      assert sp + x == x;
    }
  }

  /** Trailing whitespace is ignored by the split. */
  lemma {:induction false} SplitDropsTrailingSpaces(x: string, sp: string)
    requires AllSpace(sp)
    ensures Split(x + sp) == Split(x)
    decreases |x|
  {
    var s := x + sp;
    if |x| == 0 {
      assert s == sp + "";
      SplitSkipsSpaces(sp, "");
    } else if IsSpace(x[0]) {
      assert s[1..] == x[1..] + sp;
      SplitDropsTrailingSpaces(x[1..], sp);
    } else {
      var m := WordLen(x);
      var n := WordLen(s);
      assert forall i :: 0 <= i < |x| ==> s[i] == x[i];
      assert |sp| > 0 ==> s[|x|] == sp[0];
      assert n == m;
      assert s[..n] == x[..m];
      assert s[n..] == x[m..] + sp;
      SplitDropsTrailingSpaces(x[m..], sp);
    }
  }

  /** Splitting the join of proper words gives back the words. */
  lemma {:induction false} SplitJoin(ws: seq<string>)
    requires ProperWords(ws)
    ensures Split(Join(ws)) == ws
    decreases |ws|
  {
    if |ws| == 1 {
      SplitWord(ws[0], "");
      assert ws[0] + "" == ws[0];
    } else if |ws| > 1 {
      var rest := Join(ws[1..]);
      assert ws[0] + " " + rest == ws[0] + (" " + rest);
      SplitWord(ws[0], " " + rest);
      SplitSkipsSpaces(" ", rest);
      SplitJoin(ws[1..]);
      assert ws == [ws[0]] + ws[1..];
    }
  }

  /** The text made of the words `ws` with the whitespace runs `gaps` before, between and after them. */
  function Interleave(gaps: seq<string>, ws: seq<string>): string
    requires |gaps| == |ws| + 1
    decreases |ws|, 1
  {
    gaps[0] + Following(gaps[1..], ws)
  }

  /** The words `ws`, each followed by its gap in `gaps`. */
  function Following(gaps: seq<string>, ws: seq<string>): string
    requires |gaps| == |ws|
    decreases |ws|, 0
  {
    if |ws| == 0 then "" else ws[0] + Interleave(gaps, ws[1..])
  }

  /** Whitespace runs that can surround `n` words: all whitespace, and non-empty between two words. */
  predicate Gaps(gaps: seq<string>, n: nat)
  {
    && |gaps| == n + 1
    && (forall k :: 0 <= k < |gaps| ==> AllSpace(gaps[k]))
    && (forall k :: 0 < k < n ==> |gaps[k]| > 0)
  }

  /**
   Words separated by whitespace, with optional whitespace at both ends, split
   back into exactly those words, however long each run of whitespace is.
   */
  lemma {:induction false} SplitInterleave(gaps: seq<string>, ws: seq<string>)
    requires ProperWords(ws) && Gaps(gaps, |ws|)
    ensures Split(Interleave(gaps, ws)) == ws
    decreases |ws|
  {
    if |ws| == 0 {
      assert Interleave(gaps, ws) == gaps[0] + "";
      SplitSkipsSpaces(gaps[0], "");
    } else {
      var rest := Interleave(gaps[1..], ws[1..]);
      assert Following(gaps[1..], ws) == ws[0] + rest;
      assert Gaps(gaps[1..], |ws| - 1);
      SplitInterleave(gaps[1..], ws[1..]);
      if |ws| > 1 {
        assert rest[0] == gaps[1][0];
      } else {
        assert rest == gaps[1] + "";
      }
      assert Interleave(gaps, ws) == gaps[0] + (ws[0] + rest);
      SplitSkipsSpaces(gaps[0], ws[0] + rest);
      SplitWord(ws[0], rest);
      assert ws == [ws[0]] + ws[1..];
    }
  }

  /** The whitespace runs of `s` before, between and after its words. */
  function GapsOf(s: string): (gaps: seq<string>)
    ensures Gaps(gaps, |Split(s)|)
    ensures |s| > 0 && IsSpace(s[0]) ==> |gaps[0]| > 0
    decreases |s|
  {
    if |s| == 0 then [""]
    else if IsSpace(s[0]) then
      var g := GapsOf(s[1..]);
      [[s[0]] + g[0]] + g[1..]
    else
      var g := GapsOf(s[WordLen(s)..]);
      [""] + g
  }

  /**
   Every text is its split words interleaved with whitespace runs. With
   `SplitInterleave` this fixes `Split(s)` as the maximal runs of
   non-whitespace of `s`, in order.
   */
  lemma {:induction false} InterleaveGaps(s: string)
    ensures s == Interleave(GapsOf(s), Split(s))
    decreases |s|
  {
    if |s| > 0 && IsSpace(s[0]) {
      InterleaveGapsSpace(s);
    } else if |s| > 0 {
      InterleaveGapsWord(s);
    }
  }

  lemma {:induction false} InterleaveGapsSpace(s: string)
    requires |s| > 0 && IsSpace(s[0])
    ensures s == Interleave(GapsOf(s), Split(s))
    decreases |s|, 0
  {
    var ws := Split(s[1..]);
    assert Split(s) == ws;
    var g := GapsOf(s[1..]);
    assert GapsOf(s) == [[s[0]] + g[0]] + g[1..];
    InterleaveGaps(s[1..]);
    LongerFirstGap(s[0], g, ws);
    TakeDrop(s, 1);
    assert s[..1] == [s[0]];
  }

  lemma {:induction false} InterleaveGapsWord(s: string)
    requires |s| > 0 && !IsSpace(s[0])
    ensures s == Interleave(GapsOf(s), Split(s))
    decreases |s|, 0
  {
    var n := WordLen(s);
    var w, g, ws := s[..n], GapsOf(s[n..]), Split(s[n..]);
    SplitFrontWord(s);
    assert GapsOf(s) == [""] + g && Split(s) == [w] + ws;
    LeadingWord(w, g, ws);
    assert Interleave(GapsOf(s), Split(s)) == w + Interleave(g, ws);
    InterleaveGaps(s[n..]);
    assert s[n..] == Interleave(g, ws);
    TakeDrop(s, n);
  }

  /** How `Split` and `GapsOf` take a word off the front. */
  lemma SplitFrontWord(s: string)
    requires |s| > 0 && !IsSpace(s[0])
    ensures Split(s) == [s[..WordLen(s)]] + Split(s[WordLen(s)..])
    ensures GapsOf(s) == [""] + GapsOf(s[WordLen(s)..])
  {
  }

  /** One more whitespace character in front of the first gap. */
  lemma LongerFirstGap(c: char, gaps: seq<string>, ws: seq<string>)
    requires |gaps| == |ws| + 1
    ensures Interleave([[c] + gaps[0]] + gaps[1..], ws) == [c] + Interleave(gaps, ws)
  {
  }

  /** A word at the very front, with an empty gap before it. */
  lemma LeadingWord(w: string, gaps: seq<string>, ws: seq<string>)
    requires |gaps| == |ws| + 1
    ensures Interleave([""] + gaps, [w] + ws) == w + Interleave(gaps, ws)
  {
  }

  /** No leading or trailing space and no two spaces in a row. */
  predicate Normalized(s: string)
  {
    && (|s| > 0 ==> s[0] != ' ' && s[|s| - 1] != ' ')
    && forall i :: 0 <= i < |s| - 1 ==> !(s[i] == ' ' && s[i + 1] == ' ')
  }

  /** Joining proper words gives normalised text. */
  lemma {:induction false} JoinNormalized(ws: seq<string>)
    requires ProperWords(ws)
    ensures Normalized(Join(ws))
    ensures |ws| > 0 ==> |Join(ws)| > 0
    decreases |ws|
  {
    if |ws| == 1 {
      assert IsSpace(' ');
      assert forall i :: 0 <= i < |ws[0]| ==> ws[0][i] != ' ';
    } else if |ws| > 1 {
      var w := ws[0];
      var rest := Join(ws[1..]);
      JoinNormalized(ws[1..]);
      var s := w + " " + rest;
      assert IsSpace(' ');
      forall i | 0 <= i < |s| - 1 ensures !(s[i] == ' ' && s[i + 1] == ' ') {
        if i < |w| {
          assert s[i] == w[i];
        } else if i > |w| {
          assert s[i] == rest[i - |w| - 1] && s[i + 1] == rest[i - |w|];
        } else {
          assert s[i + 1] == rest[0];
        }
      }
      assert s[0] == w[0];
      assert s[|s| - 1] == rest[|rest| - 1];
    }
  }

  // ---------------------------------------------------------------- the pipeline

  /** The words the stemmer sees: the text after strip, tag removal, letter filter, lower-casing and split. */
  function Words(text: string): seq<string>
  {
    Split(Lower(LettersOnly(StripTags(Strip(text)))))
  }

  function Stems(stem: string -> string, ws: seq<string>): (r: seq<string>)
    ensures |r| == |ws|
    ensures forall i :: 0 <= i < |ws| ==> r[i] == stem(ws[i])
  {
    seq(|ws|, i requires 0 <= i < |ws| => stem(ws[i]))
  }

  /** `preprocess(text)` with `stem` standing for `PorterStemmer().stem`. */
  function Preprocess(stem: string -> string, text: string): string
  {
    Join(Stems(stem, Words(text)))
  }

  lemma LettersOnlyAppend(a: string, b: string)
    ensures LettersOnly(a + b) == LettersOnly(a) + LettersOnly(b)
  {
  }

  lemma LowerAppend(a: string, b: string)
    ensures Lower(a + b) == Lower(a) + Lower(b)
  {
  }

  /** Whitespace survives the two character steps as plain spaces. */
  lemma SpacesStaySpaces(sp: string)
    requires AllSpace(sp)
    ensures forall i :: 0 <= i < |sp| ==> Lower(LettersOnly(sp))[i] == ' '
    ensures |Lower(LettersOnly(sp))| == |sp|
  {
  }

  lemma Reassemble(s: string, a: nat, b: nat)
    requires a <= b <= |s|
    ensures s == s[..a] + s[a..b] + s[b..]
  {
  }

  lemma StripTagsBetweenSpaces(pre: string, x: string, post: string)
    requires AllSpace(pre) && AllSpace(post)
    ensures StripTags(pre + x + post) == pre + StripTags(x) + post
  {
    assert '<' !in pre && '>' !in post;
    assert pre + x + post == pre + (x + post);
    StripTagsKeepsPrefix(pre, x + post);
    StripTagsKeepsUnclosed(x, post);
  }

  lemma CharStepsBetweenSpaces(pre: string, x: string, post: string)
    requires AllSpace(pre) && AllSpace(post)
    ensures AllSpace(Lower(LettersOnly(pre))) && AllSpace(Lower(LettersOnly(post)))
    ensures Lower(LettersOnly(pre + x + post))
         == Lower(LettersOnly(pre)) + Lower(LettersOnly(x)) + Lower(LettersOnly(post))
  {
    SpacesStaySpaces(pre);
    SpacesStaySpaces(post);
    LettersOnlyAppend(pre + x, post);
    LettersOnlyAppend(pre, x);
    LowerAppend(LettersOnly(pre) + LettersOnly(x), LettersOnly(post));
    LowerAppend(LettersOnly(pre), LettersOnly(x));
  }

  lemma SplitBetweenSpaces(pre: string, x: string, post: string)
    requires AllSpace(pre) && AllSpace(post)
    ensures Split(pre + x + post) == Split(x)
  {
    assert pre + x + post == pre + (x + post);
    SplitSkipsSpaces(pre, x + post);
    SplitDropsTrailingSpaces(x, post);
  }

  /**
   The opening `strip()` never changes the result: surrounding whitespace holds
   no `<` or `>`, becomes spaces, and the split drops it anyway.
   */
  lemma StripIsRedundant(text: string)
    ensures Words(text) == Split(Lower(LettersOnly(StripTags(text))))
  {
    var r := Strip(text);
    var a := LeadingSpaces(text);
    var b := a + |r|;
    var pre, post := text[..a], text[b..];
    Reassemble(text, a, b);
    var m := StripTags(r);
    StripTagsBetweenSpaces(pre, r, post);
    assert StripTags(text) == pre + m + post;
    CharStepsBetweenSpaces(pre, m, post);
    var p', m', q' := Lower(LettersOnly(pre)), Lower(LettersOnly(m)), Lower(LettersOnly(post));
    assert Lower(LettersOnly(StripTags(text))) == p' + m' + q';
    SplitBetweenSpaces(p', m', q');
    assert Words(text) == Split(m');
  }

  predicate LowercaseWord(w: string)
  {
    forall i :: 0 <= i < |w| ==> 'a' <= w[i] <= 'z'
  }

  /** Every word handed to the stemmer is a non-empty run of lower-case ASCII letters. */
  lemma WordsAreLowercase(text: string)
    ensures forall k :: 0 <= k < |Words(text)| ==> |Words(text)[k]| > 0 && LowercaseWord(Words(text)[k])
  {
  }

  /**
   What the stemmer is assumed to do with such a word: return a non-empty
   string without whitespace (the Porter stemmer returns letters).
   */
  ghost predicate StemsWell(stem: string -> string)
  {
    forall w :: |w| > 0 && LowercaseWord(w) ==> |stem(w)| > 0 && SpaceFree(stem(w))
  }

  /**
   The output is the stems joined by single spaces: it has no leading, trailing
   or doubled space, and splitting it again gives back exactly the stems, one
   per word of the input.
   */
  lemma PreprocessShape(stem: string -> string, text: string)
    requires StemsWell(stem)
    ensures Normalized(Preprocess(stem, text))
    ensures Split(Preprocess(stem, text)) == Stems(stem, Words(text))
    ensures |Split(Preprocess(stem, text))| == |Words(text)|
  {
    var ws := Words(text);
    WordsAreLowercase(text);
    var st := Stems(stem, ws);
    assert ProperWords(st) by {
      forall k | 0 <= k < |st| ensures |st[k]| > 0 && SpaceFree(st[k]) {
        assert st[k] == stem(ws[k]);
      }
    }
    JoinNormalized(st);
    SplitJoin(st);
  }
}

=== FILE: redis_lock.dfy ===
/**
 The `training_lock` key in Redis: taken with `SET training_lock locked NX EX
 300` and dropped with `DELETE training_lock`. Each command is one atomic step;
 concurrent requests are a sequential interleaving of such steps.
 */
module RedisLock {
  import opened Common

  /** `ex=300`: the key lives 300 seconds. */
  const LockTtl: int := 300 * MicrosPerSecond

  /** The key is absent, or present (holding 'locked') with an expiry time. */
  datatype Lock = Absent | Present(expiresAt: Time)

  /** Redis counts a key as gone once the clock has passed its expiry time. */
  predicate Held(l: Lock, now: Time)
  {
    l.Present? && now <= l.expiresAt
  }

  datatype SetReply = SetReply(acquired: bool, lock: Lock)

  /**
   `SET key value NX EX 300`: writes the key and answers true exactly when no
   live key exists; otherwise answers None (false) and writes nothing.
   */
  function SetNxEx(l: Lock, now: Time): (r: SetReply)
    ensures r.acquired <==> !Held(l, now)
    ensures r.acquired ==> r.lock == Present(now + LockTtl) && Held(r.lock, now)
    ensures !r.acquired ==> r.lock == l
  {
    if Held(l, now) then SetReply(false, l) else SetReply(true, Present(now + LockTtl))
  }

  /** `DELETE key`: unconditional, whoever set the key. */
  function Delete(l: Lock): (r: Lock)
    ensures forall now :: !Held(r, now)
  {
    Absent
  }

  /** The outcome of a run of SET NX EX attempts, in order, with no DELETE between them. */
  datatype Race = Race(winners: seq<nat>, lock: Lock)

  /**
   Attempts at the given times, in that order; `winners` lists the positions of
   the attempts that acquired the key.
   */
  function Contend(l: Lock, times: seq<Time>): (r: Race)
    ensures forall k :: 0 <= k < |r.winners| ==> r.winners[k] < |times|
    decreases |times|
  {
    if |times| == 0 then Race([], l)
    else
      var first := SetNxEx(l, times[0]);
      var rest := Contend(first.lock, times[1..]);
      var shifted := seq(|rest.winners|, k requires 0 <= k < |rest.winners| => rest.winners[k] + 1);
      Race(if first.acquired then [0] + shifted else shifted, rest.lock)
  }

  /** While a key is live for all the attempt times, every attempt fails and the key stays. */
  lemma {:induction false} ContendWhileHeld(e: Time, times: seq<Time>)
    requires forall k :: 0 <= k < |times| ==> times[k] <= e
    ensures Contend(Present(e), times) == Race([], Present(e))
    decreases |times|
  {
    if |times| > 0 {
      ContendWhileHeld(e, times[1..]);
    }
  }

  /**
   Mutual exclusion: of any number of attempts made within 300 seconds of the
   first, starting with no live key, exactly one acquires, and it is the first.
   */
  lemma MutualExclusion(l: Lock, times: seq<Time>)
    requires |times| > 0
    requires !Held(l, times[0])
    requires forall k :: 0 <= k < |times| ==> times[k] <= times[0] + LockTtl
    ensures Contend(l, times).winners == [0]
    ensures Contend(l, times).lock == Present(times[0] + LockTtl)
  {
    ContendWhileHeld(times[0] + LockTtl, times[1..]);
  }

  /** After a DELETE the next SET NX EX acquires, whatever the time. */
  lemma ReleaseThenAcquire(l: Lock, now: Time)
    ensures SetNxEx(Delete(l), now).acquired
  {
  }

  /** Crash safety: a key nobody deletes stops blocking once 300 seconds have passed. */
  lemma ExpiryFreesLock(t0: Time, now: Time)
    requires now > t0 + LockTtl
    ensures SetNxEx(SetNxEx(Absent, t0).lock, now).acquired
  {
  }

  /**
   The lost-release hazard of an unconditional DELETE. A takes the key at t0 and
   overruns it; B takes the expired key at t1; A's DELETE then removes B's key,
   and C acquires at t2 although B's key would still have been live: B and C
   both hold the lock.
   */
  lemma UnconditionalReleaseHazard(t0: Time, t1: Time, t2: Time)
    requires t0 + LockTtl < t1 <= t2 <= t1 + LockTtl
    ensures var a := SetNxEx(Absent, t0);
      var b := SetNxEx(a.lock, t1);
      var c := SetNxEx(Delete(b.lock), t2);
      && a.acquired && b.acquired && c.acquired
      && Held(b.lock, t2)
  {
  }
}

=== FILE: scenario.dfy ===
/**
 An end-to-end run from an empty deployment: register alice, log in, train,
 and watch the token expire.
 */
module Scenario {
  import opened Common
  import opened Hashing
  import UserDB
  import TokensDB
  import RedisLock
  import opened App

  const Fresh: Server := Server(UserDB.Store(map[], false), TokensDB.EmptyTokens, map[], RedisLock.Absent)

  /**
   register("alice", "pw1"); validate succeeds; login issues `tok`, which
   verifies; a training request takes the lock; a second request finds it
   busy; after the first one's `finally` the lock can be taken again. One day
   after login the token is refused, yet it still resolves to "alice".
   */
  lemma AliceScenario(h: Bcrypt, salt: Bytes, tok: string, now: Time)
    requires Accepts(h) && StandardDigest(h)
    ensures var s1 := Register(Fresh, h, Some("alice"), Some("pw1"), salt).state;
      var login := Login(s1, h, Some("alice"), Some("pw1"), tok, now, now, now);
      var s2 := login.state;
      var first := TrainEnter(s2, Some(tok), now);
      var second := TrainEnter(first.state, Some(tok), now);
      var released := TrainExit(first.state, tok, "alice", Completed, now).state;
      && UserDB.ValidateUser(s1.users, h, "alice", "pw1")
      && login.page == IndexPage(tok, None)
      && Verified(s2, tok, now)
      && first.entry == Entered(tok, "alice")
      && second.entry == Busy(tok)
      && TrainEnter(released, Some(tok), now).entry.Entered?
      && !Verified(s2, tok, now + TokensDB.TokenLifetime)
      && TokensDB.GetUsername(s2.tokens.rows, tok) == TokensDB.RowTuple("alice")
  {
    var s1 := Register(Fresh, h, Some("alice"), Some("pw1"), salt).state;
    UserDB.InsertThenValidate(Fresh.users, h, "alice", "pw1", salt);
    assert Credentials(s1, h, Some("alice"), Some("pw1"));
    TokensDB.VerifyAfterIssue(s1.tokens, "alice", tok, now, now, now);
    TokensDB.VerifyAfterIssue(s1.tokens, "alice", tok, now, now, now + TokensDB.TokenLifetime);
    TokensDB.GetUsernameAfterIssue(s1.tokens, "alice", tok, now, now);
  }
}

=== FILE: tokens_db.dfy ===
/**
 The TOKENS table (`TokensDB`): session tokens bound to a username with a
 one-day validity window. The token column is not declared UNIQUE, so the table
 is a sequence of rows in insertion order, not a map keyed by token.
 */
module TokensDB {
  import opened Common

  /** `datetime.timedelta(days=1)` in microseconds. */
  const TokenLifetime: int := 24 * 60 * 60 * MicrosPerSecond

  /** One row: the SERIAL token_id, the owner, the token text and its two timestamps. */
  datatype TokenRow = TokenRow(id: nat, username: string, token: string, createdAt: Time, expiresAt: Time)

  /** The rows in insertion order and the next value of the sequence behind token_id. */
  datatype Tokens = Tokens(rows: seq<TokenRow>, nextId: nat)

  /** A freshly created table: no rows, and a SERIAL column starts at 1. */
  const EmptyTokens: Tokens := Tokens([], 1)

  /** Row ids strictly increase in insertion order, so no two rows share one. */
  ghost predicate IdsIncrease(rows: seq<TokenRow>)
  {
    forall i, j :: 0 <= i < j < |rows| ==> rows[i].id < rows[j].id
  }

  /**
   token_id is a SERIAL primary key: every id was drawn from the sequence, in
   order, and no two rows share one.
   */
  ghost predicate Valid(t: Tokens)
  {
    && (forall i :: 0 <= i < |t.rows| ==> t.rows[i].id < t.nextId)
    && IdsIncrease(t.rows)
  }

  /** What `generate_token` leaves behind: the new table and the token it returns. */
  datatype Issued = Issued(table: Tokens, token: string)

  /**
   `generate_token`: append one row for `username` holding `newToken` (the value of
   `uuid.uuid4().hex`). The clock is read twice: `createdRead` becomes created_at
   and `expiresRead` plus one day becomes expires_at.
   */
  function GenerateToken(t: Tokens, username: string, newToken: string, createdRead: Time, expiresRead: Time): (r: Issued)
    ensures r.token == newToken
    ensures |r.table.rows| == |t.rows| + 1 && r.table.rows[..|t.rows|] == t.rows
    ensures var row := r.table.rows[|t.rows|];
      && row.username == username && row.token == newToken
      && row.createdAt == createdRead
      && row.expiresAt == expiresRead + TokenLifetime
    // the window is strictly positive unless the clock went back by a whole day between the reads
    ensures createdRead - expiresRead < TokenLifetime ==>
      r.table.rows[|t.rows|].expiresAt > r.table.rows[|t.rows|].createdAt
    ensures createdRead <= expiresRead ==>
      r.table.rows[|t.rows|].expiresAt - r.table.rows[|t.rows|].createdAt >= TokenLifetime
    ensures Valid(t) ==> Valid(r.table)
  {
    var row := TokenRow(t.nextId, username, newToken, createdRead, expiresRead + TokenLifetime);
    Issued(Tokens(t.rows + [row], t.nextId + 1), newToken)
  }

  /** The row is a live session for `token` at time `now`: the query's `expires_at > now`. */
  predicate Live(row: TokenRow, token: string, now: Time)
  {
    row.token == token && row.expiresAt > now
  }

  /**
   `verify_token`: does a row carry this token and expire strictly after `now`?
   A token is refused at its expires_at instant and afterwards.
   */
  function VerifyToken(rows: seq<TokenRow>, token: string, now: Time): (ok: bool)
    ensures ok <==> exists i :: 0 <= i < |rows| && rows[i].token == token && rows[i].expiresAt > now
    decreases |rows|
  {
    if |rows| == 0 then false
    else if Live(rows[0], token, now) then true
    else
      var rest := VerifyToken(rows[1..], token, now);
      assert rest ==> exists i :: 0 <= i < |rows| && Live(rows[i], token, now) by {
        if rest {
          var k :| 0 <= k < |rows| - 1 && Live(rows[1..][k], token, now);
          assert Live(rows[k + 1], token, now);
        }
      }
      rest
  }

  /**
   The result of `get_username`: the first fetched row, which is a one-column
   tuple `(username,)`, or the empty string when no row matched.
   */
  datatype Lookup = RowTuple(username: string) | Blank

  /**
   `get_username`: the owner of a row holding `token`, whether or not that row
   has expired. SQL promises no row order; the model takes the earliest row.
   */
  function GetUsername(rows: seq<TokenRow>, token: string): (r: Lookup)
    ensures r.RowTuple? <==> exists i :: 0 <= i < |rows| && rows[i].token == token
    ensures r.RowTuple? ==> exists i :: 0 <= i < |rows| && rows[i].token == token && rows[i].username == r.username
    decreases |rows|
  {
    if |rows| == 0 then Blank
    else if rows[0].token == token then RowTuple(rows[0].username)
    else
      var rest := GetUsername(rows[1..], token);
      assert rest.RowTuple? ==> exists i :: 0 <= i < |rows| && rows[i].token == token && rows[i].username == rest.username by {
        if rest.RowTuple? {
          var k :| 0 <= k < |rows| - 1 && rows[1..][k].token == token && rows[1..][k].username == rest.username;
          assert rows[k + 1] == rows[1..][k];
        }
      }
      assert (exists i :: 0 <= i < |rows| && rows[i].token == token) ==> rest.RowTuple? by {
        if exists i :: 0 <= i < |rows| && rows[i].token == token {
          var i :| 0 <= i < |rows| && rows[i].token == token;
          assert rows[1..][i - 1].token == token;
        }
      }
      rest
  }

  /** The rows whose token differs from `token`, in their original order. */
  function RowsWithout(rows: seq<TokenRow>, token: string): (r: seq<TokenRow>)
    ensures forall row :: row in r <==> row in rows && row.token != token
    ensures |r| <= |rows|
    decreases |rows|
  {
    if |rows| == 0 then []
    else if rows[0].token == token then RowsWithout(rows[1..], token)
    else
      assert rows == [rows[0]] + rows[1..];
      [rows[0]] + RowsWithout(rows[1..], token)
  }

  /** `invalidate_token`: DELETE every row that holds `token`, and only those. */
  function InvalidateToken(t: Tokens, token: string): (r: Tokens)
    ensures r.nextId == t.nextId
    ensures forall row :: row in r.rows <==> row in t.rows && row.token != token
  {
    Tokens(RowsWithout(t.rows, token), t.nextId)
  }

  /**
   A token issued at created/expires reads (c, e), that no row held before, is
   accepted exactly while `now < e + TokenLifetime`.
   */
  lemma VerifyAfterIssue(t: Tokens, username: string, newToken: string, c: Time, e: Time, now: Time)
    requires forall i :: 0 <= i < |t.rows| ==> t.rows[i].token != newToken
    ensures VerifyToken(GenerateToken(t, username, newToken, c, e).table.rows, newToken, now)
        <==> now < e + TokenLifetime
  {
  }

  /** The boundary instants of that window: one microsecond before it closes, and the instant it does. */
  lemma ExpiryBoundary(t: Tokens, username: string, newToken: string, c: Time, e: Time)
    requires forall i :: 0 <= i < |t.rows| ==> t.rows[i].token != newToken
    ensures var rows := GenerateToken(t, username, newToken, c, e).table.rows;
      && VerifyToken(rows, newToken, e + TokenLifetime - 1)
      && !VerifyToken(rows, newToken, e + TokenLifetime)
  {
  }

  /** The owner of a freshly issued token is found at any time, before or after its expiry. */
  lemma GetUsernameAfterIssue(t: Tokens, username: string, newToken: string, c: Time, e: Time)
    requires forall i :: 0 <= i < |t.rows| ==> t.rows[i].token != newToken
    ensures GetUsername(GenerateToken(t, username, newToken, c, e).table.rows, newToken) == RowTuple(username)
  {
  }

  /** An expired token stays expired: acceptance at a later time implies acceptance at an earlier one. */
  lemma VerifyAntitone(rows: seq<TokenRow>, token: string, earlier: Time, later: Time)
    requires earlier <= later
    ensures VerifyToken(rows, token, later) ==> VerifyToken(rows, token, earlier)
  {
  }

  /** Whoever passes verification also has an owner to resolve. */
  lemma VerifiedHasOwner(rows: seq<TokenRow>, token: string, now: Time)
    requires VerifyToken(rows, token, now)
    ensures GetUsername(rows, token).RowTuple?
  {
  }

  /** After `invalidate_token(t)` the token `t` is refused at every time. */
  lemma VerifyAfterInvalidate(t: Tokens, token: string, now: Time)
    ensures !VerifyToken(InvalidateToken(t, token).rows, token, now)
  {
  }

  /** Invalidating a token does not change the verdict on any other token. */
  lemma InvalidateKeepsOthers(t: Tokens, token: string, other: string, now: Time)
    requires other != token
    ensures VerifyToken(InvalidateToken(t, token).rows, other, now) == VerifyToken(t.rows, other, now)
  {
    var rows := InvalidateToken(t, token).rows;
    if VerifyToken(t.rows, other, now) {
      var i :| 0 <= i < |t.rows| && t.rows[i].token == other && t.rows[i].expiresAt > now;
      assert t.rows[i] in rows;
      var j :| 0 <= j < |rows| && rows[j] == t.rows[i];
      assert rows[j].token == other;
    }
    if VerifyToken(rows, other, now) {
      var i :| 0 <= i < |rows| && rows[i].token == other && rows[i].expiresAt > now;
      assert rows[i] in t.rows;
      var j :| 0 <= j < |t.rows| && t.rows[j] == rows[i];
      assert t.rows[j].token == other;
    }
  }

  /** Deleting the same token twice is the same as deleting it once. */
  lemma {:induction false} RowsWithoutIdempotent(rows: seq<TokenRow>, token: string)
    ensures RowsWithout(RowsWithout(rows, token), token) == RowsWithout(rows, token)
    decreases |rows|
  {
    if |rows| > 0 {
      RowsWithoutIdempotent(rows[1..], token);
      if rows[0].token != token {
        var once := RowsWithout(rows[1..], token);
        var r := [rows[0]] + once;
        assert r[0] == rows[0] && r[1..] == once;
      }
    }
  }

  lemma InvalidateIdempotent(t: Tokens, token: string)
    ensures InvalidateToken(InvalidateToken(t, token), token) == InvalidateToken(t, token)
  {
    RowsWithoutIdempotent(t.rows, token);
  }

  lemma IdsIncreaseCons(x: TokenRow, rest: seq<TokenRow>)
    requires IdsIncrease(rest)
    requires forall y :: y in rest ==> x.id < y.id
    ensures IdsIncrease([x] + rest)
  {
    var r := [x] + rest;
    forall i, j | 0 <= i < j < |r| ensures r[i].id < r[j].id {
      assert r[j] == rest[j - 1];
      assert r[j] in rest;
      if i > 0 {
        assert r[i] == rest[i - 1];
      }
    }
  }

  /** Deleting rows keeps the remaining ids in increasing order. */
  lemma {:induction false} RowsWithoutIncrease(rows: seq<TokenRow>, token: string)
    requires IdsIncrease(rows)
    ensures IdsIncrease(RowsWithout(rows, token))
    decreases |rows|
  {
    if |rows| > 0 {
      var tail := rows[1..];
      assert IdsIncrease(tail) by {
        forall i, j | 0 <= i < j < |tail| ensures tail[i].id < tail[j].id {
          assert tail[i] == rows[i + 1] && tail[j] == rows[j + 1];
        }
      }
      RowsWithoutIncrease(tail, token);
      if rows[0].token != token {
        var rest := RowsWithout(tail, token);
        forall y | y in rest ensures rows[0].id < y.id {
          var k :| 0 <= k < |tail| && tail[k] == y;
          assert rows[k + 1] == y;
        }
        IdsIncreaseCons(rows[0], rest);
      }
    }
  }

  /** `invalidate_token` keeps the primary-key invariant. */
  lemma InvalidateValid(t: Tokens, token: string)
    requires Valid(t)
    ensures Valid(InvalidateToken(t, token))
  {
    RowsWithoutIncrease(t.rows, token);
    var rows := InvalidateToken(t, token).rows;
    forall i | 0 <= i < |rows| ensures rows[i].id < t.nextId {
      assert rows[i] in t.rows;
    }
  }
}

=== FILE: user_db.dfy ===
/**
 The USER table (`UserDB`): username is the primary key, the other column holds
 the stored password hash. Both columns are VARCHAR(100).

 The table is reached through one long-lived connection, and `execute_query`
 neither commits nor rolls back when a statement fails. PostgreSQL then keeps
 that connection in a failed transaction and refuses every later statement on
 it. The model therefore pairs the rows with an `aborted` flag for the
 connection.
 */
module UserDB {
  import opened Common
  import Base64
  import opened Hashing

  const VarcharSize: nat := 100

  /**
   How PostgreSQL stores text into a VARCHAR(100) column: text of at most 100
   characters as it is; longer text cut to 100 characters when everything past
   the 100th character is a space; any other text is refused with an error.
   */
  function Varchar(v: string): (r: Option<string>)
    ensures r.Some? ==> |r.value| <= VarcharSize && r.value <= v
    ensures r.Some? && |v| > VarcharSize ==> r.value == v[..VarcharSize]
    ensures r == Some(v) <==> |v| <= VarcharSize
    ensures r.None? <==> exists i :: VarcharSize <= i < |v| && v[i] != ' '
  {
    if |v| <= VarcharSize then Some(v)
    else if forall i :: VarcharSize <= i < |v| ==> v[i] == ' ' then Some(v[..VarcharSize])
    else None
  }

  /**
   Whether psycopg2 can quote `v` as an SQL literal: PostgreSQL text cannot
   hold the NUL character, and the driver raises ValueError for such a
   literal before anything is sent to the server.
   */
  predicate NulFree(v: string)
  {
    forall i :: 0 <= i < |v| ==> v[i] != '\0'
  }

  /** The rows of USER, and whether the application's connection to it is stuck in a failed transaction. */
  datatype Store = Store(rows: map<string, string>, aborted: bool)

  /**
   Whether the INSERT of `insert_user`, once sent on a healthy connection,
   succeeds: both values fit their columns and the stored username is not
   taken yet.
   */
  predicate Admits(st: Store, username: string, stored: string)
  {
    Varchar(username).Some? && Varchar(stored).Some? && Varchar(username).value !in st.rows
  }

  /**
   `insert_user`: one INSERT, as written. A username holding NUL cannot be
   quoted, so the driver's ValueError is swallowed by the bare `except:` before
   any statement is sent, and nothing changes. On a healthy connection that
   admits the row, the row is added and committed. Otherwise the statement
   fails (a unique-key violation or an over-long value), and `execute_query`
   re-raises the error as DatabaseCommunicationError without a rollback. The
   bare `except:` swallows it, so nothing escapes, but the connection is left
   aborted. On an aborted connection the INSERT is refused and swallowed the
   same way. `salt` is the fresh salt of this call.
   */
  function InsertUser(st: Store, h: Bcrypt, username: string, password: string, salt: Bytes): (r: Store)
    ensures st.aborted || !NulFree(username) ==> r == st
    ensures !st.aborted && NulFree(username) && !Admits(st, username, Encrypt(h, password, salt)) ==>
      r == Store(st.rows, true)
    ensures !st.aborted && NulFree(username) && Admits(st, username, Encrypt(h, password, salt)) ==>
      var key := Varchar(username).value;
      && !r.aborted
      && r.rows.Keys == st.rows.Keys + {key}
      && Base64.Decode(r.rows[key]) == Some(h.hashpw(password, salt))
      && (forall u :: u in st.rows ==> r.rows[u] == st.rows[u])
  {
    var stored := Encrypt(h, password, salt);
    if st.aborted || !NulFree(username) then st
    else if !Admits(st, username, stored) then st.(aborted := true)
    else
      StoredKeptWhole(h, password, salt);
      Store(st.rows[Varchar(username).value := stored], false)
  }

  /** Base64 text holds no space, so the password column never cuts it: it is stored whole or refused. */
  lemma StoredKeptWhole(h: Bcrypt, password: string, salt: Bytes)
    ensures Varchar(Encrypt(h, password, salt)).Some? ==> Varchar(Encrypt(h, password, salt)) == Some(Encrypt(h, password, salt))
  {
    var stored := Encrypt(h, password, salt);
    Base64.EncodeIsAlphabet(h.hashpw(password, salt));
    if |stored| > VarcharSize {
      assert stored[VarcharSize] != ' ';
    }
  }

  /**
   `insert_user` as evidently intended: a failed INSERT is rolled back, so the
   table and the connection are as they were before the call.
   */
  function InsertUserRolledBack(st: Store, h: Bcrypt, username: string, password: string, salt: Bytes): (r: Store)
    ensures st.aborted || !NulFree(username) || !Admits(st, username, Encrypt(h, password, salt)) ==> r == st
    ensures !st.aborted && NulFree(username) && Admits(st, username, Encrypt(h, password, salt)) ==>
      r == InsertUser(st, h, username, password, salt)
    ensures r.aborted == st.aborted
  {
    var stored := Encrypt(h, password, salt);
    if st.aborted || !NulFree(username) || !Admits(st, username, stored) then st
    else Store(st.rows[Varchar(username).value := stored], false)
  }

  /**
   `validate_user`: look the username up, Base64-decode the stored hash and ask
   bcrypt. A username holding NUL cannot be quoted, and on an aborted
   connection the SELECT itself fails. An unknown
   username leaves the stored hash `None`, so `checkpw` raises. A stored value
   that is not Base64 makes the decoder raise. All three are caught and give
   false. The comparison of the stored username with the given one always
   holds, since the row was selected by that username.
   */
  function ValidateUser(st: Store, h: Bcrypt, username: string, password: string): (ok: bool)
    ensures ok ==> !st.aborted && NulFree(username) && username in st.rows
  {
    if st.aborted || !NulFree(username) || username !in st.rows then false
    else
      match Base64.Decode(st.rows[username])
      case None => false
      case Some(digest) => h.checkpw(password, digest)
  }

  /**
   `delete_user` (both definitions in the class do the same DELETE). Its
   failure is not caught, so on an aborted connection the
   DatabaseCommunicationError escapes (None), and so does the driver's
   ValueError for a username holding NUL.
   */
  function DeleteUser(st: Store, username: string): (r: Option<Store>)
    ensures r.None? <==> st.aborted || !NulFree(username)
    ensures r.Some? ==>
      && !r.value.aborted
      && r.value.rows.Keys == st.rows.Keys - {username}
      && (forall u :: u in r.value.rows ==> r.value.rows[u] == st.rows[u])
  {
    if st.aborted || !NulFree(username) then None else Some(Store(st.rows - {username}, false))
  }

  /** With bcrypt's standard digest, the stored text always fits its column. */
  lemma StoredFits(h: Bcrypt, password: string, salt: Bytes)
    requires StandardDigest(h)
    ensures |Encrypt(h, password, salt)| == 80
    ensures Varchar(Encrypt(h, password, salt)).Some?
  {
    var digest := h.hashpw(password, salt);
    assert |digest| == DigestLength;
    assert (|digest| + 2) / 3 == 20;
  }

  /** A username that is not in the table never validates. */
  lemma UnknownUserRejected(st: Store, h: Bcrypt, username: string, password: string)
    requires username !in st.rows
    ensures !ValidateUser(st, h, username, password)
  {
  }

  /** Registering a new user and then logging in with the same password succeeds. */
  lemma InsertThenValidate(st: Store, h: Bcrypt, username: string, password: string, salt: Bytes)
    requires Accepts(h) && StandardDigest(h)
    requires !st.aborted && NulFree(username) && username !in st.rows && |username| <= VarcharSize
    ensures ValidateUser(InsertUser(st, h, username, password, salt), h, username, password)
  {
  }

  /** With a binding hash, a password other than the registered one is refused. */
  lemma InsertThenWrongPassword(st: Store, h: Bcrypt, username: string, password: string, other: string, salt: Bytes)
    requires Binding(h)
    requires username !in st.rows
    requires other != password
    ensures !ValidateUser(InsertUser(st, h, username, password, salt), h, username, other)
  {
  }

  /**
   An INSERT that does not break the connection does not change whether any
   other user validates.
   */
  lemma InsertKeepsOthers(st: Store, h: Bcrypt, username: string, password: string, salt: Bytes,
                          other: string, attempt: string)
    requires Varchar(username) != Some(other)
    ensures InsertUser(st, h, username, password, salt).aborted == st.aborted ==>
      ValidateUser(InsertUser(st, h, username, password, salt), h, other, attempt)
        == ValidateUser(st, h, other, attempt)
  {
  }

  /**
   The source's defect: an INSERT that is sent on a healthy connection and
   fails leaves the rows as they were, yet from then on no user validates with
   any password.
   */
  lemma FailedInsertLocksOut(st: Store, h: Bcrypt, username: string, password: string, salt: Bytes,
                             other: string, attempt: string)
    requires !st.aborted && NulFree(username) && !Admits(st, username, Encrypt(h, password, salt))
    ensures InsertUser(st, h, username, password, salt).rows == st.rows
    ensures !ValidateUser(InsertUser(st, h, username, password, salt), h, other, attempt)
  {
  }

  /**
   Inserting the same username twice leaves the connection aborted, unless
   the name holds NUL and so never reaches the server.
   */
  lemma InsertTwiceAborts(st: Store, h: Bcrypt, username: string, password: string,
                         salt1: Bytes, salt2: Bytes)
    ensures InsertUser(InsertUser(st, h, username, password, salt1), h, username, password, salt2).aborted
      <==> st.aborted || NulFree(username)
  {
    var st1 := InsertUser(st, h, username, password, salt1);
    if !st1.aborted && NulFree(username) {
      assert Admits(st, username, Encrypt(h, password, salt1));
      assert Varchar(username).value in st1.rows;
    }
  }

  /**
   With the rollback, a failed registration never changes whether another user
   validates, and a duplicate registration changes nothing at all.
   */
  lemma RolledBackKeepsOthers(st: Store, h: Bcrypt, username: string, password: string, salt: Bytes,
                              other: string, attempt: string)
    requires Varchar(username) != Some(other)
    ensures ValidateUser(InsertUserRolledBack(st, h, username, password, salt), h, other, attempt)
        == ValidateUser(st, h, other, attempt)
  {
  }

  /** After a user is deleted, no password validates for that name. */
  lemma DeleteThenValidate(st: Store, h: Bcrypt, username: string, password: string)
    ensures DeleteUser(st, username).Some? ==> !ValidateUser(DeleteUser(st, username).value, h, username, password)
  {
  }
}
